=== FILE: README.md ===
# gigaword reader, modelled in Dafny

This project models the reader of the annotated Gigaword corpus. The corpus
files hold one `DOC` element per news document. Each element carries an id,
a type, an optional headline and dateline written as bracketed expressions, a
text of paragraphs, CoreNLP sentences of tokens, and coreference chains of
mentions. The reader:

- splits the lines of a file into blocks that end at a `</DOC>` line;
- parses each block as XML;
- turns its `DOC` element into a `Document` record.

Five switches turn the optional parts off. A separate helper groups the
tokens of a sentence into runs of the same named-entity tag.

The modules follow the two source files:

| module | models |
|---|---|
| `Wrappers` | `Option`, `Result`, the error kinds the reader can raise, and `MapAll`. `MapAll` is a list comprehension that stops at the first call that raises. |
| `Strings` | The Python string operations the reader relies on: `strip`, `split(sep)`, `split()`, and the whitespace collapse `re.sub('\s+', ' ', ...)`. |
| `Lisp` | `parse_lisp`: the tokenizer, the stack fold, and the exact failure conditions. It also includes a serializer used to state the round trip. |
| `Dates` | Python's `int()` on text, clamped slicing, `parse_ymd`, and how the date string is cut out of a document id. |
| `Xml` | The parts of an ElementTree element the reader uses: `find`, `findall`, `attrib` and `text`. |
| `Annotations` | The records `Token`, `Sentence` and `Mention`, and `parse_text`, `parse_mention`, `parse_token` and `parse_sentence`. It also writes these records out as elements, which the round-trip lemmas use. |
| `Documents` | The body of the `read_file` loop for one `DOC` element. This covers the optional parts with their switches and the `Document` record. |
| `Reader` | `read_file`: dropping the header line, splitting into blocks, the XML parser as a parameter, and the stream of documents a generator yields. |
| `Grouping` | `group_ne_tokens`: the runs made by `itertools.groupby`, and the filtering by skipped tags. |

A Python exception is modelled as a `Failure` carrying an `Error`. A
generator that raises part-way is modelled as a `Stream`: the documents
yielded before the failure, followed by the error.

## Model

| member | source | states |
|---|---|---|
| Wrappers.MapAll | gigaword/__init__.py:77 | A comprehension succeeds iff every call succeeds. It then holds one result per element, in order. Otherwise its error is that of the first failing call, and every earlier call succeeded. |
| Wrappers.MapAllSucceeds | gigaword/__init__.py:117-118 | When every call yields a known value, the comprehension yields exactly those values. |
| Strings.Strip | gigaword/__init__.py:31 | `str.strip()` returns text that neither starts nor ends with whitespace, and is never longer than its input. |
| Strings.StripSpec | gigaword/__init__.py:31 | The stripped text is a contiguous piece of the input, and everything cut away on either side is whitespace. |
| Strings.StripAround | gigaword/__init__.py:48 | Text that neither starts nor ends with whitespace, surrounded by any whitespace, strips to itself. |
| Strings.Split | gigaword/__init__.py:100 | `s.split(sep)` yields at least one piece, no piece holds the separator, and joining the pieces with the separator gives `s` back. |
| Strings.Collapse | gigaword/__init__.py:31 | `re.sub('\s+', ' ', s)` is empty iff `s` is, starts with a space exactly where `s` starts with whitespace (else with the same character), leaves no whitespace but the plain space, and never leaves two whitespace characters side by side. |
| Strings.SplitStripCollapse | gigaword/__init__.py:31-33 | Collapsing, stripping and splitting on one space gives the whitespace-separated fields of the text, or one empty piece when there are none. |
| Lisp.Step | gigaword/__init__.py:34-41 | A token fails iff it is `)` with only the outer list open. Otherwise the stack grows by one on `(`, shrinks by one on `)` and keeps its height on any other token. |
| Lisp.Fold | gigaword/__init__.py:32-41 | After the whole loop, the stack height is one plus the token balance, and never below one. |
| Lisp.FoldFails | gigaword/__init__.py:33-39 | The loop fails iff some prefix of the tokens closes more lists than are open. |
| Lisp.UnmatchedCloseFails | gigaword/__init__.py:36-39 | A `)` with no `(` to match makes the parse fail with an unmatched-close error. |
| Lisp.UnclosedOpenFails | gigaword/__init__.py:34-42 | A leading `(` that is never closed leaves the outer list empty, so `stack[0][0]` fails. |
| Lisp.TrailingOpenIgnored | gigaword/__init__.py:32-42 | A `(` left open after a complete first expression is not an error: `A ( B` reads as `A`. |
| Lisp.ParseLisp | gigaword/__init__.py:28-42 | Every atom it returns is free of whitespace and parentheses. Writing out what it reads gives back a prefix of the text's tokens. |
| Lisp.ParseTokens | gigaword/__init__.py:32-42 | Whatever the loop reads, written out again, is exactly the first tokens of its input: `( A ) ( B` reads as `(A)`, the tokens `( A )`. |
| Lisp.FoldUnparse | gigaword/__init__.py:33-41 | Over any successful run of the loop, the stack written out (the outer list, then each open list after a `(`) is the stack it started from followed by the tokens read. |
| Lisp.Tokenize | gigaword/__init__.py:29-33 | There is at least one token, and every token is a lone parenthesis or free of whitespace and parentheses. |
| Lisp.TokenizeIsFields | gigaword/__init__.py:29-33 | The tokens are the whitespace-separated fields of the padded text, or one empty token when there are none. |
| Lisp.BlankIsEmptyAtom | gigaword/__init__.py:31-42 | Empty or whitespace-only text reads as the empty atom. |
| Lisp.FirstOnly | gigaword/__init__.py:42 | With several top-level expressions, the first is returned and the rest are dropped. |
| Lisp.RoundTrip | gigaword/__init__.py:28-42 | Any expression whose atoms are non-empty and clean, written out with its parentheses, reads back as itself. |
| Lisp.Example | gigaword/__init__.py:28-42 | `( A ( B C ) )` reads as the pair of A and the tuple (B, C). |
| Lisp.ParseLispStrip | gigaword/__init__.py:48 | Stripping the text before parsing, as every caller does, does not change the result. |
| Dates.ParseInt | gigaword/__init__.py:22-24 | Python's `int()` on text accepts only text that holds a digit. |
| Dates.ParseIntSyntax | gigaword/__init__.py:22-24 | `int()` accepts text iff it holds none of the information separators U+001C to U+001F and, once stripped, it is one or more ASCII digits with an optional `+` or `-` in front. |
| Dates.ParseIntSigned | gigaword/__init__.py:22-24 | The whitespace `int()` skips (every `str.isspace` character but U+001C to U+001F) around an optionally signed run of digits is ignored, and the value is that of the digits, negated after a `-`. |
| Dates.ParseIntRejects | gigaword/__init__.py:22-24 | The empty text, a lone `+`, `12a`, `1 2` and `5` after U+001C are rejected. |
| Dates.ParseYmd | gigaword/__init__.py:21-25 | `parse_ymd` succeeds iff `int` accepts `text[:4]`, `text[4:6]` and `text[6:]`; a year `int` rejects is the error. A date string shorter than seven characters is rejected. An accepted year is within [-999, 9999] and an accepted month within [-9, 99], as four and two characters allow. |
| Dates.YmdRejectsLetter | gigaword/__init__.py:21-22 | `1A960531` fails on its year `1A96`. |
| Dates.ParseYmdDecimal | gigaword/__init__.py:21-25 | A four-digit year, a two-digit month and a day of any number of digits, written one after the other, read back as that date. |
| Dates.ParseIntText | gigaword/__init__.py:57-60 | `int` reads back the decimal text of any integer, negative ones included. |
| Dates.DateString | gigaword/__init__.py:100 | The date string contains neither `_` nor `.`, and is no longer than the piece after the last `_`. |
| Dates.DateStringFallback | gigaword/__init__.py:100 | When there is no `_` before the date or no `.` after it, `split` yields the whole remaining text: `DATE`, `prefix_DATE` and `DATE.suffix` all give `DATE`. |
| Dates.DateStringOf | gigaword/__init__.py:100 | For an id `prefix_DATE.suffix` with no `_` after the prefix, the date string is `DATE`, whatever the prefix holds. |
| Dates.DateOf | gigaword/__init__.py:100-101 | An id with neither `_` nor `.` is read as a date string whole. A date is read only from an id whose piece after the last `_` has at least seven characters. |
| Dates.DateOfId | gigaword/__init__.py:100-101 | An id `prefix_YYYYMMDD.suffix`, with a day of any positive number of digits and no `_` in the suffix, is dated by the digits it spells, whatever the prefix holds. |
| Dates.DateExample | gigaword/__init__.py:99-101 | The id `XYZ_ENG_19960531.0001` is dated 31 May 1996. |
| Xml.Find | gigaword/__init__.py:103 | A found element is a child of the element and has the requested tag. |
| Xml.FindSpec | gigaword/__init__.py:103-104 | `find` returns None iff no child has the tag. Otherwise it returns the child at the first position that has it. |
| Xml.FindAll | gigaword/__init__.py:46 | `findall` returns exactly the children with the tag. |
| Xml.FindAllInOrder | gigaword/__init__.py:46 | `findall` lists the children with the tag in document order, each once: its `k`-th element is the child at the `k`-th matching position, the positions strictly increase, and a position is listed iff its child has the tag. |
| Xml.FindIsHeadOfFindAll | gigaword/__init__.py:46-47 | `find` returns the first element of `findall`, and None when `findall` is empty. |
| Xml.Attr | gigaword/__init__.py:99 | Reading an attribute succeeds iff the attribute is present, and then yields its value. An absent key is a KeyError. |
| Annotations.ChildText | gigaword/__init__.py:66-71 | `xml.find(tag).text` fails iff there is no child with the tag (reading `.text` of None), and otherwise is that child's text, which may be None. |
| Annotations.ChildInt | gigaword/__init__.py:57-60 | Reading an integer child succeeds iff the child exists, has text, and `int` accepts that text. The result is that integer. |
| Annotations.LispText | gigaword/__init__.py:48 | An element without text fails. Otherwise the result is `parse_lisp` of its text. |
| Annotations.ParseText | gigaword/__init__.py:45-51 | With `P` children, there is one expression per `P` child, in order, and it succeeds iff every paragraph reads. Without them, there is exactly one expression, read from the element's own text. |
| Annotations.ParseMention | gigaword/__init__.py:54-60 | Succeeds iff all four integer children read. The representative flag is set iff the `representative` attribute is present. |
| Annotations.ParseToken | gigaword/__init__.py:63-71 | A token without an id fails with a missing-attribute error. Reading succeeds iff the id is present and the `word`, `lemma`, `POS` and `NER` children have text and both offset children hold integers. On success, every field is the value read from its attribute or child. |
| Annotations.ParseSentence | gigaword/__init__.py:74-77 | A missing id or `tokens` child is an error. Reading succeeds iff the id and `tokens` are present and every child of `tokens` reads as a token. On success, the id is the attribute, and there is one token per child of `tokens`, whatever its tag, each read from that child. |
| Annotations.ParseChain | gigaword/__init__.py:117 | A chain reads iff every one of its mention children reads. It then holds one mention per child, in order, each the mention read from that child. |
| Annotations.ParseChains | gigaword/__init__.py:115-118 | The chains read iff every child of `coreferences` reads as a chain. There is then one chain per child, in order, and the `j`-th mention of the `i`-th chain is the mention read from the `j`-th child of the `i`-th child. |
| Annotations.MentionRoundTrip | gigaword/__init__.py:54-60 | Any mention written out as an element reads back unchanged. |
| Annotations.TokenRoundTrip | gigaword/__init__.py:63-71 | Any token written out as an element reads back unchanged, every field included. |
| Annotations.SentenceRoundTrip | gigaword/__init__.py:74-77 | Any sentence written out as an element reads back unchanged. |
| Annotations.ChainRoundTrip | gigaword/__init__.py:117 | Any coreference chain written out as an element reads back unchanged. |
| Annotations.ParagraphsRoundTrip | gigaword/__init__.py:46-50 | Well-formed paragraphs written as `P` children read back in order. |
| Annotations.PlainTextRoundTrip | gigaword/__init__.py:47-48 | A text without `P` children reads back as the one expression written in its own text. |
| Documents.Part | gigaword/__init__.py:103-107 | An optional part is None when its element is absent or its switch is off. Otherwise it is the part read from the element, and reading it may fail. |
| Documents.ReadParts | gigaword/__init__.py:103-133 | The parts read iff no switched-on, present part fails to read. Each of the five parts is then present iff its switch is on and its element exists, and its value is what its reader (`parse_lisp` of the text, the chains, the sentences, `parse_text`) gives for that element. When the four parts before the text read and the text fails, the text's error is the result. |
| Documents.Build | gigaword/__init__.py:99-143 | A document without an id fails with a missing-attribute error, and one whose date does not read fails with the date's error. A document reads iff it has an id, its date reads, no switched-on part fails and it has a type; a document missing only the type fails with a missing-attribute error, and one whose id, date and first four parts read but whose text fails has the text's error. A document that reads takes its id, type and date from them. Headline, dateline and text are the values read from their elements when switched on and found, and None otherwise. Sentences and coreferences are the values read when switched on and found, and empty otherwise. |
| Documents.SentencesOf | gigaword/__init__.py:122-125 | The sentences read iff every child of `sentences` reads as a sentence. There is then one sentence per child, in order, each the sentence read from that child. |
| Documents.ParseDocument | gigaword/__init__.py:129-133 | The text of a document, when present, is what `parse_text` reads from its `TEXT` element. |
| Documents.HeadlineOff | gigaword/__init__.py:103-107 | Switching the headline off never adds an error and drops only the headline. |
| Documents.DatelineOff | gigaword/__init__.py:109-113 | Switching the dateline off never adds an error and drops only the dateline. |
| Documents.CoreferencesOff | gigaword/__init__.py:115-120 | Switching coreferences off never adds an error and empties only the coreferences. |
| Documents.SentencesOff | gigaword/__init__.py:122-127 | Switching sentences off never adds an error and empties only the sentences. |
| Documents.TextOff | gigaword/__init__.py:129-133 | Switching the text off never adds an error and drops only the text. |
| Documents.AsWrittenWithoutText | gigaword/__init__.py:129-133 | When the text switch is off or there is no `TEXT` element, the loop as written and as intended read the same document. |
| Documents.ParseDocumentAsWritten | gigaword/__init__.py:99-143 | The loop as written succeeds only when the text switch is off or there is no `TEXT` element, and its documents never have text. Once the id, the date and the four parts before the text have read, a `TEXT` element under the switch makes it fail with the call of a bool, whatever the text holds and whether there is a type. |
| Documents.SampleDocExample | gigaword/__init__.py:99-143 | A sample document with id `XYZ_ENG_19960531.0001` and one line of text reads as intended, and fails as written. |
| Reader.Blocks | gigaword/__init__.py:85-96 | Every block ends at its first terminator line. The blocks plus the terminator-free leftover lines make up exactly the lines after the header. There is one block per terminator. |
| Reader.BlocksUnique | gigaword/__init__.py:90-94 | Any split of the lines after the header into terminator-ended blocks plus a terminator-free tail is the reader's split. |
| Reader.TrailingLinesIgnored | gigaword/__init__.py:91-94 | Lines after the last terminator never form a block. |
| Reader.SplitDocuments | gigaword/__init__.py:90-96 | The line loop, with its growing buffer that is reset after each block, yields exactly `Blocks`. |
| Reader.ParseBlock | gigaword/__init__.py:95-97 | A block the XML parser rejects is an error, and so is a block without `DOC`. Otherwise the block reads as its `DOC` element does. |
| Reader.ParseBlocks | gigaword/__init__.py:91-143 | Documents are yielded in block order, one per block, up to the first block that fails. If any block fails, its error ends the stream. |
| Reader.ReadFile | gigaword/__init__.py:80-144 | A file yields at most one document per terminator after the header. |
| Reader.ReadFileIgnoresTrailing | gigaword/__init__.py:91-94 | Appending terminator-free lines to a file that ends in a terminator changes nothing that is read. |
| Reader.OneDocumentPerTerminator | gigaword/__init__.py:91-135 | A file whose blocks all read yields exactly one document per terminator. |
| Reader.ParseBlockAsWritten | gigaword/__init__.py:95-143 | A block that the loop as written reads has no text and reads the same under the corrected loop. |
| Reader.ReadFileAsWritten | gigaword/__init__.py:80-144 | `read_file` as written yields no document with text, and yields a prefix of the documents the corrected loop yields. |
| Reader.ReadEachPrefix | gigaword/__init__.py:91-143 | A block reader that agrees with another wherever it succeeds yields a prefix of the other's documents. |
| Reader.AsWrittenWithoutTextSwitch | gigaword/__init__.py:129-133 | With the text switch off, `read_file` as written and as corrected yield the same stream. |
| Grouping.Runs | gigaword/utils.py:5 | The runs are non-empty and each carries one tag. Consecutive runs differ in tag. Put back together, they are the tokens. |
| Grouping.RunsUnique | gigaword/utils.py:5 | Any split into non-empty single-tag runs where neighbours differ in tag is the one `groupby` makes. |
| Grouping.Keep | gigaword/utils.py:6 | Dropping the runs whose tag is skipped keeps exactly the runs whose tag is not skipped, and never adds one. |
| Grouping.GroupNeTokens | gigaword/utils.py:4-7 | Every group yielded is a run whose tag is not skipped, and every run whose tag is not skipped is yielded. |
| Grouping.GroupNeTokensInOrder | gigaword/utils.py:4-7 | The groups are the runs whose tag is not skipped, in sentence order and each once: the `k`-th group is the run at the `k`-th kept position, the kept positions strictly increase, and a run's position is kept iff its tag is not skipped. |
| Grouping.GroupedTokens | gigaword/utils.py:4-7 | The groups put back together are the sentence's tokens whose tag is not skipped, in order and with their multiplicity, as a plain token filter gives them. |
| Grouping.FilterTokens | gigaword/utils.py:4-7 | The filter keeps only tokens of the input whose tag is not skipped, and never more tokens than there are. |
| Grouping.KeepFilter | gigaword/utils.py:5-7 | Dropping the runs with skipped tags and then putting the rest back together equals filtering the tokens one by one. |
| Grouping.NoSkipGivesTokensBack | gigaword/utils.py:4 | With the default empty skip set, the groups are all the runs and give back every token. |
| Grouping.EmptySentenceNoGroups | gigaword/utils.py:5-7 | A sentence without tokens yields no group. |
| Grouping.GroupExample | gigaword/utils.py:4-7 | With `O` skipped, `O O PERSON PERSON O LOCATION` groups into PERSON (two tokens) and then LOCATION. |

## Left out

- Decompression and file access (`gzip.open`, line 84): the reader takes the decompressed lines as a sequence of strings.
- Bytes versus text: under Python 3, `gzip.open` yields bytes, and line 94 compares them with a `str`. That comparison is never true, so no document would be yielded. The model reads lines as text, as the code evidently intends.
- The XML parser (`etree.fromstringlist`, line 97) is a parameter. It returns the root element, or None when it rejects the text. Entity decoding, tail text and namespaces are out of scope.
- The commented-out header parsing (lines 86-88) and the module-level imports are not modelled.
- Generator laziness: the documents a generator would yield are a finite `Stream`. A consumer that stops early is not modelled.
- Dates.ParseInt: Python's `int()` is modelled for ASCII digits with an optional sign and surrounding whitespace. Underscores between digits and non-ASCII decimal digits, which `int()` also accepts, are not. Its own contract only says accepted text holds a digit; what it accepts is stated by `ParseIntSyntax` and what it returns by `ParseIntSigned`.
- The whitespace of `re.sub('\s+', ...)` (line 31) and of `str.strip` are taken to be the same set, the one `str.isspace` uses. `int()` skips that set except the information separators U+001C to U+001F, which make it fail; `Dates.ParseInt` models this.
- Reader.ReadFile: it reads each document with line 131 corrected, through `ParseDocument`. As written, the stream stops with a TypeError at the first document with a `TEXT` element under the default switches; `ReadFileAsWritten` models that reading. Its own contract bounds the number of documents; the rest of what it promises is stated by `Blocks`, `ParseBlocks` and the lemmas about them.
- An unclosed `(` is an error only when the outer list stays empty, so `A ( B` reads as `A` (line 42 takes `stack[0][0]` whatever is left open).
- The day is `text[6:]`, everything after the sixth character of the date string, so a day of any number of digits is read.
- Integers are unbounded, as Python's are. No width or wrap-around applies.

## Findings

| source | as written | input that shows it | evidently intended | confidence | as-written member | corrected member |
|---|---|---|---|---|---|---|
| gigaword/__init__.py:130-131 | Inside `read_file`, the boolean parameter `parse_text` shadows the module function `parse_text`. Line 131 therefore calls a bool, which raises TypeError. | Any `DOC` with a `TEXT` child read under the default switches, e.g. id `XYZ_ENG_19960531.0001`, type `story`, text `Hello` | Line 131 reads the text with the module-level `parse_text`, giving `[Hello]` | not executed | Documents.ParseDocumentAsWritten | Documents.ParseDocument |

=== FILE: Annotations.dfy ===
/** The per-element readers of gigaword/__init__.py: `parse_text`,
    `parse_mention`, `parse_token` and `parse_sentence`, and the records they
    build. A missing child, a missing attribute, absent text or a
    non-integer offset is an error, as the Python exception it raises. */
module Annotations {
  import opened Wrappers
  import opened Strings
  import opened Lisp
  import opened Dates
  import opened Xml

  /** A token of the CoreNLP annotation (`lemmaForm` is the `lemma` field, a
      reserved word here). `word`, `lemmaForm`, `pos` and `ner` are
      the child elements' text, which ElementTree leaves as None when empty. */
  datatype Token = Token(id: string, word: Option<string>, lemmaForm: Option<string>,
                         begin: int, end: int, pos: Option<string>, ner: Option<string>)

  datatype Sentence = Sentence(id: string, tokens: seq<Token>)

  datatype Mention = Mention(representative: bool, sentence: int, start: int, end: int, head: int)

  /** `el.find(tag).text`. */
  function ChildText(el: Element, tag: string): (r: Result<Option<string>, Error>)
    ensures r.Failure? <==> Find(el, tag).None?
    ensures r.Failure? ==> r.error == MissingChild(tag)
    ensures r.Success? ==> Find(el, tag).Some? && r.value == Find(el, tag).value.text
  {
    var c :- Child(el, tag);
    Success(c.text)
  }

  /** `int(el.find(tag).text)`: `int(None)` is a TypeError. */
  function ChildInt(el: Element, tag: string): (r: Result<int, Error>)
    ensures r.Success? <==>
              && Find(el, tag).Some?
              && Find(el, tag).value.text.Some?
              && ParseInt(Find(el, tag).value.text.value).Some?
    ensures r.Success? ==> ParseInt(Find(el, tag).value.text.value) == Some(r.value)
  {
    var t :- ChildText(el, tag);
    match t
    case None => Failure(NotAnInteger(None))
    case Some(s) => IntOf(s)
  }

  /** `parse_lisp(el.text.strip())`. Stripping first makes no difference to
      the expression read. */
  function LispText(el: Element): (r: Result<Expr, Error>)
    ensures el.text.None? ==> r == Failure(MissingText)
    ensures el.text.Some? ==> r == ParseLisp(el.text.value)
  {
    match el.text
    case None => Failure(MissingText)
    case Some(t) =>
      ParseLispStrip(t);
      ParseLisp(Strip(t))
  }

  /** `parse_text(el)`: one expression per `P` child, in order, or exactly
      one, read from the element's own text, when it has no `P` child. */
  function ParseText(el: Element): (r: Result<seq<Expr>, Error>)
    ensures var ps := FindAll(el, "P");
            r.Success? ==> |r.value| == (if ps == [] then 1 else |ps|)
    ensures var ps := FindAll(el, "P");
            ps != [] ==>
              && (r.Success? <==> forall i :: 0 <= i < |ps| ==> LispText(ps[i]).Success?)
              && (r.Success? ==> forall i :: 0 <= i < |ps| ==> LispText(ps[i]) == Success(r.value[i]))
    ensures FindAll(el, "P") == [] ==>
              && (r.Success? <==> LispText(el).Success?)
              && (r.Success? ==> r.value == [LispText(el).value])
  {
    var ps := FindAll(el, "P");
    if |ps| == 0 then
      var e :- LispText(el);
      Success([e])
    else
      MapAll(ps, LispText)
  }

  /** `parse_mention(el)`: the flag is the presence of the `representative`
      attribute; the four positions are integer children. */
  function ParseMention(el: Element): (r: Result<Mention, Error>)
    ensures r.Success? <==>
              && ChildInt(el, "sentence").Success? && ChildInt(el, "start").Success?
              && ChildInt(el, "end").Success? && ChildInt(el, "head").Success?
    ensures r.Success? ==> (r.value.representative <==> "representative" in el.attrib)
  {
    var sentence :- ChildInt(el, "sentence");
    var start :- ChildInt(el, "start");
    var end :- ChildInt(el, "end");
    var head :- ChildInt(el, "head");
    Success(Mention("representative" in el.attrib, sentence, start, end, head))
  }

  /** `parse_token(el)`, reading the fields in declaration order so that the
      first missing one is the one reported. */
  function ParseToken(el: Element): (r: Result<Token, Error>)
    ensures "id" !in el.attrib ==> r == Failure(MissingAttribute("id"))
    ensures r.Success? <==>
              && "id" in el.attrib
              && ChildText(el, "word").Success? && ChildText(el, "lemma").Success?
              && ChildInt(el, "CharacterOffsetBegin").Success? && ChildInt(el, "CharacterOffsetEnd").Success?
              && ChildText(el, "POS").Success? && ChildText(el, "NER").Success?
    ensures r.Success? ==>
              && el.attrib["id"] == r.value.id
              && ChildText(el, "word") == Success(r.value.word)
              && ChildText(el, "lemma") == Success(r.value.lemmaForm)
              && ChildInt(el, "CharacterOffsetBegin") == Success(r.value.begin)
              && ChildInt(el, "CharacterOffsetEnd") == Success(r.value.end)
              && ChildText(el, "POS") == Success(r.value.pos)
              && ChildText(el, "NER") == Success(r.value.ner)
  {
    var id :- Attr(el, "id");
    var word :- ChildText(el, "word");
    var lemmaForm :- ChildText(el, "lemma");
    var begin :- ChildInt(el, "CharacterOffsetBegin");
    var end :- ChildInt(el, "CharacterOffsetEnd");
    var pos :- ChildText(el, "POS");
    var ner :- ChildText(el, "NER");
    Success(Token(id, word, lemmaForm, begin, end, pos, ner))
  }

  /** `parse_sentence(el)`: every child of `tokens`, whatever its tag, is read
      as a token; a sentence without `tokens` cannot be iterated. */
  function ParseSentence(el: Element): (r: Result<Sentence, Error>)
    ensures "id" !in el.attrib ==> r == Failure(MissingAttribute("id"))
    ensures "id" in el.attrib && Find(el, "tokens").None? ==> r == Failure(MissingChild("tokens"))
    ensures r.Success? <==>
              && "id" in el.attrib && Find(el, "tokens").Some?
              && forall i :: 0 <= i < |Find(el, "tokens").value.children| ==>
                   ParseToken(Find(el, "tokens").value.children[i]).Success?
    ensures r.Success? ==>
              && r.value.id == el.attrib["id"]
              && Find(el, "tokens").Some?
              && |r.value.tokens| == |Find(el, "tokens").value.children|
              && forall i :: 0 <= i < |r.value.tokens| ==>
                   ParseToken(Find(el, "tokens").value.children[i]) == Success(r.value.tokens[i])
  {
    var id :- Attr(el, "id");
    var toks :- Child(el, "tokens");
    var tokens :- MapAll(toks.children, ParseToken);
    Success(Sentence(id, tokens))
  }

  /** One coreference chain: every child is a mention. */
  function ParseChain(el: Element): (r: Result<seq<Mention>, Error>)
    ensures r.Success? <==> forall j :: 0 <= j < |el.children| ==> ParseMention(el.children[j]).Success?
    ensures r.Success? ==>
              && |r.value| == |el.children|
              && forall j :: 0 <= j < |el.children| ==> ParseMention(el.children[j]) == Success(r.value[j])
  {
    MapAll(el.children, ParseMention)
  }

  /** The `coreferences` element: every child is a chain. */
  function ParseChains(el: Element): (r: Result<seq<seq<Mention>>, Error>)
    ensures r.Success? <==> forall i :: 0 <= i < |el.children| ==> ParseChain(el.children[i]).Success?
    ensures r.Success? ==>
              && |r.value| == |el.children|
              && forall i :: 0 <= i < |el.children| ==> ParseChain(el.children[i]) == Success(r.value[i])
    ensures r.Success? ==>
              forall i, j :: 0 <= i < |el.children| && 0 <= j < |el.children[i].children| ==>
                |r.value[i]| == |el.children[i].children|
                && ParseMention(el.children[i].children[j]) == Success(r.value[i][j])
  {
    MapAll(el.children, ParseChain)
  }

  // ---------------------------------------------------------------------
  // Writing records out as elements, and reading them back

  function Leaf(tag: string, text: string): Element {
    Element(tag, map[], Some(text), [])
  }

  function Tagged(tag: string, text: Option<string>): Element {
    Element(tag, map[], text, [])
  }

  function MentionElement(m: Mention): Element {
    Element("mention", if m.representative then map["representative" := "true"] else map[], None,
            MentionChildren(IntText(m.sentence), IntText(m.start), IntText(m.end), IntText(m.head)))
  }

  function MentionChildren(a: string, b: string, c: string, d: string): seq<Element> {
    [Leaf("sentence", a), Leaf("start", b), Leaf("end", c), Leaf("head", d)]
  }

  function TokenElement(t: Token): Element {
    Element("token", map["id" := t.id], None, TokenChildren(t, IntText(t.begin), IntText(t.end)))
  }

  function TokenElements(ts: seq<Token>): (r: seq<Element>)
    ensures |r| == |ts| && forall i :: 0 <= i < |ts| ==> r[i] == TokenElement(ts[i])
  {
    if ts == [] then [] else [TokenElement(ts[0])] + TokenElements(ts[1..])
  }

  function SentenceElement(s: Sentence): Element {
    Element("sentence", map["id" := s.id], None, [Element("tokens", map[], None, TokenElements(s.tokens))])
  }

  function ChainElement(ms: seq<Mention>): (r: Element)
    ensures |r.children| == |ms| && forall i :: 0 <= i < |ms| ==> r.children[i] == MentionElement(ms[i])
  {
    if ms == [] then Element("coreference", map[], None, [])
    else
      var rest := ChainElement(ms[1..]);
      rest.(children := [MentionElement(ms[0])] + rest.children)
  }

  function ParagraphElements(es: seq<Expr>): (r: seq<Element>)
    ensures |r| == |es| && forall i :: 0 <= i < |es| ==> r[i] == Leaf("P", Render(es[i]))
  {
    if es == [] then [] else [Leaf("P", Render(es[0]))] + ParagraphElements(es[1..])
  }

  /** A mention written out as an element is read back unchanged. */
  lemma MentionRoundTrip(m: Mention)
    ensures ParseMention(MentionElement(m)) == Success(m)
  {
    var el := MentionElement(m);
    MentionChildInt(m, 0);
    MentionChildInt(m, 1);
    MentionChildInt(m, 2);
    MentionChildInt(m, 3);
    MentionOfInts(el, m);
  }

  /** The i-th position of a mention written out is read back from the
      child holding it. */
  lemma MentionChildInt(m: Mention, i: nat)
    requires i < 4
    ensures var el := MentionElement(m);
      ChildInt(el, el.children[i].tag) == Success([m.sentence, m.start, m.end, m.head][i])
  {
    var el := MentionElement(m);
    var v := [m.sentence, m.start, m.end, m.head][i];
    MentionChildrenDistinct(IntText(m.sentence), IntText(m.start), IntText(m.end), IntText(m.head));
    assert el.children[i] == Leaf(el.children[i].tag, IntText(v));
    ParseIntText(v);
    IntAt(el, i, v);
  }

  /** A mention whose four integer children read as its positions. */
  lemma MentionOfInts(el: Element, m: Mention)
    requires ChildInt(el, "sentence") == Success(m.sentence) && ChildInt(el, "start") == Success(m.start)
    requires ChildInt(el, "end") == Success(m.end) && ChildInt(el, "head") == Success(m.head)
    requires m.representative <==> "representative" in el.attrib
    ensures ParseMention(el) == Success(m)
  {
  }

  /** Among children with distinct tags, an integer child is read from the
      child with the tag. */
  lemma IntAt(el: Element, i: nat, v: int)
    requires i < |el.children| && DistinctTags(el.children)
    requires el.children[i].text.Some? && ParseInt(el.children[i].text.value) == Some(v)
    ensures ChildInt(el, el.children[i].tag) == Success(v)
  {
    FoundAt(el, i);
  }

  /** No two children share a tag. */
  predicate DistinctTags(cs: seq<Element>) {
    forall i, j :: 0 <= i < j < |cs| ==> cs[i].tag != cs[j].tag
  }

  /** Among children with distinct tags, `find` returns the one with the tag. */
  lemma FoundAt(el: Element, i: nat)
    requires i < |el.children| && DistinctTags(el.children)
    ensures Find(el, el.children[i].tag) == Some(el.children[i])
  {
    FindSpec(el, el.children[i].tag);
  }

  /** A token written out as an element is read back unchanged. */
  lemma TokenRoundTrip(t: Token)
    ensures ParseToken(TokenElement(t)) == Success(t)
  {
    ParseIntText(t.begin);
    ParseIntText(t.end);
    TokenOfTexts(IntText(t.begin), IntText(t.end), t);
  }

  function TokenChildren(t: Token, b: string, e: string): seq<Element> {
    [Tagged("word", t.word), Tagged("lemma", t.lemmaForm),
     Leaf("CharacterOffsetBegin", b), Leaf("CharacterOffsetEnd", e),
     Tagged("POS", t.pos), Tagged("NER", t.ner)]
  }

  lemma MentionChildrenDistinct(a: string, b: string, c: string, d: string)
    ensures DistinctTags(MentionChildren(a, b, c, d))
  {
  }

  lemma TokenChildrenDistinct(t: Token, b: string, e: string)
    ensures DistinctTags(TokenChildren(t, b, e))
  {
  }

  lemma TokenOfTexts(b: string, e: string, t: Token)
    requires ParseInt(b) == Some(t.begin) && ParseInt(e) == Some(t.end)
    ensures ParseToken(Element("token", map["id" := t.id], None, TokenChildren(t, b, e))) == Success(t)
  {
    var el := Element("token", map["id" := t.id], None, TokenChildren(t, b, e));
    TokenChildrenDistinct(t, b, e);
    FoundAt(el, 0);
    FoundAt(el, 1);
    FoundAt(el, 2);
    FoundAt(el, 3);
    FoundAt(el, 4);
    FoundAt(el, 5);
  }

  /** A sentence written out as an element is read back unchanged. */
  lemma SentenceRoundTrip(s: Sentence)
    ensures ParseSentence(SentenceElement(s)) == Success(s)
  {
    var es := TokenElements(s.tokens);
    forall i | 0 <= i < |es| ensures ParseToken(es[i]) == Success(s.tokens[i]) {
      TokenRoundTrip(s.tokens[i]);
    }
    var r := MapAll(es, ParseToken);
    assert r.value == s.tokens;
  }

  /** A coreference chain written out as an element is read back unchanged. */
  lemma ChainRoundTrip(ms: seq<Mention>)
    ensures ParseChain(ChainElement(ms)) == Success(ms)
  {
    var el := ChainElement(ms);
    forall i | 0 <= i < |ms| ensures ParseMention(el.children[i]) == Success(ms[i]) {
      MentionRoundTrip(ms[i]);
    }
    MapAllSucceeds(el.children, ParseMention, ms);
  }

  /** A text of well-formed paragraphs written as `P` children is read back
      paragraph by paragraph. */
  lemma ParagraphsRoundTrip(es: seq<Expr>, attrib: map<string, string>, text: Option<string>)
    requires es != [] && forall i :: 0 <= i < |es| ==> WellFormed(es[i])
    ensures ParseText(Element("TEXT", attrib, text, ParagraphElements(es))) == Success(es)
  {
    var el := Element("TEXT", attrib, text, ParagraphElements(es));
    var ps := ParagraphElements(es);
    AllP(ps);
    assert FindAll(el, "P") == ps;
    ParagraphsRead(es);
    MapAllSucceeds(ps, LispText, es);
  }

  /** Each written paragraph reads back as its expression. */
  lemma ParagraphsRead(es: seq<Expr>)
    requires forall i :: 0 <= i < |es| ==> WellFormed(es[i])
    ensures forall i :: 0 <= i < |es| ==> LispText(ParagraphElements(es)[i]) == Success(es[i])
  {
    var ps := ParagraphElements(es);
    forall i | 0 <= i < |es| ensures LispText(ps[i]) == Success(es[i]) {
      RoundTrip(es[i]);
    }
  }

  lemma {:induction false} AllP(cs: seq<Element>)
    requires forall i :: 0 <= i < |cs| ==> cs[i].tag == "P"
    ensures AllWithTag(cs, "P") == cs
    decreases |cs|
  {
    if cs != [] {
      AllP(cs[1..]);
      assert [cs[0]] + cs[1..] == cs;
    }
  }

  /** A text without paragraphs is read as the single expression in its own
      text. */
  lemma PlainTextRoundTrip(e: Expr, attrib: map<string, string>)
    requires WellFormed(e)
    ensures ParseText(Element("TEXT", attrib, Some(Render(e)), [])) == Success([e])
  {
    RoundTrip(e);
  }
}

=== FILE: Dates.dfy ===
/** Integer parsing, `parse_ymd` (gigaword/__init__.py:21-25) and the date
    taken from a document id (gigaword/__init__.py:100-101). */
module Dates {
  import opened Wrappers
  import opened Strings

  datatype YMD = YMD(year: int, month: int, day: int)

  predicate IsDigit(c: char) { '0' <= c <= '9' }

  predicate AllDigits(s: string) {
    forall i :: 0 <= i < |s| ==> IsDigit(s[i])
  }

  function DigitValue(c: char): nat
    requires IsDigit(c)
  {
    c as int - '0' as int
  }

  function DigitChar(d: nat): char
    requires d < 10
  {
    ('0' as int + d) as char
  }

  /** The value of a string of decimal digits, most significant first. */
  function DigitsValue(ds: string): nat
    requires AllDigits(ds)
  {
    if ds == [] then 0 else DigitsValue(ds[..|ds| - 1]) * 10 + DigitValue(ds[|ds| - 1])
  }

  function Pow10(w: nat): nat {
    if w == 0 then 1 else 10 * Pow10(w - 1)
  }

  /** `n` written with exactly `w` decimal digits, zero-padded on the left. */
  function Decimal(n: nat, w: nat): (r: string)
    requires n < Pow10(w)
    ensures |r| == w && AllDigits(r) && DigitsValue(r) == n
  {
    if w == 0 then []
    else
      var r := Decimal(n / 10, w - 1) + [DigitChar(n % 10)];
      assert r[..|r| - 1] == Decimal(n / 10, w - 1);
      r
  }

  /** The number of decimal digits `str(n)` writes for `n`. */
  function NumDigits(n: nat): (w: nat)
    ensures 1 <= w && n < Pow10(w)
  {
    if n < 10 then 1 else 1 + NumDigits(n / 10)
  }

  /** `str(n)`: a minus sign for negatives, then the digits without padding. */
  function IntText(n: int): string {
    if n < 0 then "-" + Decimal(-n, NumDigits(-n)) else Decimal(n, NumDigits(n))
  }

  /** The ASCII information separators U+001C to U+001F. `str.isspace` holds
      for them, so `strip` and `\s` treat them as whitespace, but `int` skips
      only C's ASCII whitespace (tab, line feed, vertical tab, form feed,
      carriage return, space) and the non-ASCII whitespace. */
  predicate IsSeparatorControl(c: char) {
    '\U{1c}' <= c <= '\U{1f}'
  }

  predicate NoSeparatorControl(s: string) {
    forall i :: 0 <= i < |s| ==> !IsSeparatorControl(s[i])
  }

  /** The whitespace `int` skips around a number. */
  predicate IsIntWs(c: char) {
    IsWs(c) && !IsSeparatorControl(c)
  }

  predicate AllIntWs(s: string) {
    forall i :: 0 <= i < |s| ==> IsIntWs(s[i])
  }

  /** Python's `int(s)` on a string: surrounding whitespace is ignored, an
      optional sign is followed by one or more ASCII digits. An information
      separator anywhere is neither skipped nor a digit, so it is rejected. */
  function ParseInt(s: string): (r: Option<int>)
    ensures r.Some? ==> exists c :: c in s && IsDigit(c)
  {
    if !NoSeparatorControl(s) then None
    else
      var t := Strip(s);
      StripInside(s);
      var signed := t != [] && (t[0] == '-' || t[0] == '+');
      var ds := if signed then t[1..] else t;
      if ds == [] || !AllDigits(ds) then None
      else
        assert t[|t| - |ds|] == ds[0] && ds[0] in t;
        var v: int := DigitsValue(ds);
        Some(if signed && t[0] == '-' then -v else v)
  }

  /** The stripped text is a piece of the original. */
  lemma StripInside(s: string)
    ensures forall c :: c in Strip(s) ==> c in s
  {
    var t := SkipWs(s);
    SkipWsSpec(s);
    StripEndSpec(t);
    forall c | c in Strip(s) ensures c in s {
      var i :| 0 <= i < |Strip(s)| && Strip(s)[i] == c;
      assert t[i] == c;
      assert s[|s| - |t| + i] == c;
    }
  }

  /** Python's slice `s[i:j]` for non-negative bounds, clamped to the string. */
  function Slice(s: string, i: nat, j: nat): (r: string)
    ensures |r| <= |s|
  {
    var a := if i < |s| then i else |s|;
    var b := if j < |s| then j else |s|;
    if a <= b then s[a..b] else []
  }

  function IntOf(s: string): Result<int, Error> {
    match ParseInt(s)
    case None => Failure(NotAnInteger(Some(s)))
    case Some(v) => Success(v)
  }

  /** `parse_ymd(text)`: the year is the first four characters, the month the
      next two and the day everything after. Every piece must hold digits, so
      a date string of fewer than seven characters is rejected. */
  function ParseYmd(text: string): (r: Result<YMD, Error>)
    ensures r.Success? <==>
              && ParseInt(Slice(text, 0, 4)).Some? && ParseInt(Slice(text, 4, 6)).Some?
              && ParseInt(Slice(text, 6, |text|)).Some?
    ensures ParseInt(Slice(text, 0, 4)).None? ==> r == Failure(NotAnInteger(Some(Slice(text, 0, 4))))
    ensures r.Success? ==> |text| >= 7
    ensures r.Success? ==> -999 <= r.value.year <= 9999 && -9 <= r.value.month <= 99
  {
    var year :- IntOf(Slice(text, 0, 4));
    var month :- IntOf(Slice(text, 4, 6));
    var day :- IntOf(Slice(text, 6, |text|));
    assert |Slice(text, 0, 4)| <= 4 && |Slice(text, 4, 6)| <= 2;
    SmallInt(Slice(text, 0, 4));
    SmallInt(Slice(text, 4, 6));
    Success(YMD(year, month, day))
  }

  lemma {:induction false} DigitsBound(ds: string)
    requires AllDigits(ds)
    ensures DigitsValue(ds) < Pow10(|ds|)
    decreases |ds|
  {
    if ds != [] {
      DigitsBound(ds[..|ds| - 1]);
    }
  }

  /** An integer of at most `w` characters is below `10^w` and, when negative,
      above `-10^(w-1)`. */
  lemma SmallInt(s: string)
    requires ParseInt(s).Some?
    ensures |s| <= 4 ==> -999 <= ParseInt(s).value <= 9999
    ensures |s| <= 2 ==> -9 <= ParseInt(s).value <= 99
  {
    var t := Strip(s);
    StripInside(s);
    var signed := t != [] && (t[0] == '-' || t[0] == '+');
    var ds := if signed then t[1..] else t;
    DigitsBound(ds);
    if |s| <= 4 {
      assert Pow10(|ds|) <= Pow10(4) by { PowMono(|ds|, 4); }
      if signed { PowMono(|ds|, 3); }
    }
    if |s| <= 2 {
      assert Pow10(|ds|) <= Pow10(2) by { PowMono(|ds|, 2); }
      if signed { PowMono(|ds|, 1); }
    }
  }

  lemma {:induction false} PowMono(a: nat, b: nat)
    requires a <= b
    ensures Pow10(a) <= Pow10(b)
    decreases b
  {
    if a < b { PowMono(a, b - 1); }
  }

  /** The date string of a document id: the part after the last `_`, up to
      its first `.`. */
  function DateString(id: string): (r: string)
    ensures '_' !in r && '.' !in r
    ensures var parts := Split(id, '_'); |r| <= |parts[|parts| - 1]|
  {
    var parts := Split(id, '_');
    var last := parts[|parts| - 1];
    var pieces := Split(last, '.');
    assert Join(pieces, '.') == last;
    JoinInside(pieces, '.');
    JoinLength(pieces, '.');
    pieces[0]
  }

  /** Joining keeps every piece's characters. */
  lemma {:induction false} JoinInside(parts: seq<string>, sep: char)
    requires |parts| >= 1
    ensures forall c :: c in parts[0] ==> c in Join(parts, sep)
  {
    if |parts| > 1 {
      var j := Join(parts, sep);
      assert j == parts[0] + [sep] + Join(parts[1..], sep);
      forall c | c in parts[0] ensures c in j {
        var i :| 0 <= i < |parts[0]| && parts[0][i] == c;
        assert j[i] == c;
      }
    }
  }

  /** The date of a document: `parse_ymd` of its date string. */
  function DateOf(id: string): (r: Result<YMD, Error>)
    ensures '_' !in id && '.' !in id ==> r == ParseYmd(id)
    ensures r.Success? ==> var parts := Split(id, '_'); |parts[|parts| - 1]| >= 7
  {
    if '_' !in id && '.' !in id then
      DateStringWhole(id);
      ParseYmd(id)
    else
      DateNeedsSeven(id);
      ParseYmd(DateString(id))
  }

  /** A date is read only from a date string of seven characters or more,
      which the piece after the last `_` holds. */
  lemma DateNeedsSeven(id: string)
    ensures var parts := Split(id, '_');
            ParseYmd(DateString(id)).Success? ==> |parts[|parts| - 1]| >= 7
  {
    var parts := Split(id, '_');
    var date := DateString(id);
    assert |date| <= |parts[|parts| - 1]|;
    var ok := ParseYmd(date).Success?;
    assert ok ==> |date| >= 7;
  }

  /** An id with neither separator is its own date string. */
  lemma DateStringWhole(id: string)
    requires '_' !in id && '.' !in id
    ensures DateString(id) == id && Split(id, '_') == [id]
  {
    SplitNoSep(id, '_');
    SplitNoSep(id, '.');
  }

  /** Joining never shortens the first piece. */
  lemma {:induction false} JoinLength(parts: seq<string>, sep: char)
    requires |parts| >= 1
    ensures |parts[0]| <= |Join(parts, sep)|
  {
  }

  /** Without a `_` the date string starts at the beginning of the id, and
      without a `.` it runs to the end: `split` then yields the whole text. */
  lemma DateStringFallback(prefix: string, date: string, suffix: string)
    requires '_' !in date && '.' !in date && '_' !in suffix
    ensures DateString(date) == date
    ensures DateString(prefix + "_" + date) == date
    ensures DateString(date + "." + suffix) == date
  {
    SplitNoSep(date, '_');
    SplitNoSep(date, '.');
    var tail := date + "." + suffix;
    assert '_' !in tail;
    SplitNoSep(tail, '_');
    assert tail == date + ['.'] + suffix;
    SplitAfterPiece(date, '.', suffix);
    assert prefix + "_" + date == prefix + ['_'] + date;
    SplitLast(prefix, '_', date);
  }

  // ---------------------------------------------------------------------
  // Lemmas

  lemma StripPlain(s: string)
    requires s != [] && NoWs(s)
    ensures Strip(s) == s
  {
    assert SkipWs(s) == s;
    assert StripEnd(s) == s;
  }

  lemma DigitsNoWs(s: string)
    requires AllDigits(s)
    ensures NoWs(s) && NoSeparatorControl(s)
  {
  }

  /** `int` reads back a zero-padded decimal. */
  lemma ParseDecimal(n: nat, w: nat)
    requires 1 <= w && n < Pow10(w)
    ensures ParseInt(Decimal(n, w)) == Some(n)
  {
    var s := Decimal(n, w);
    DigitsNoWs(s);
    StripPlain(s);
    assert !(s[0] == '-' || s[0] == '+');
  }

  /** `int(str(n)) == n`. */
  lemma ParseIntText(n: int)
    ensures ParseInt(IntText(n)) == Some(n)
  {
    if n < 0 {
      ParseNegative(Decimal(-n, NumDigits(-n)));
    } else {
      ParseDecimal(n, NumDigits(n));
    }
  }

  /** A minus sign in front of digits negates their value. */
  lemma ParseNegative(ds: string)
    requires ds != [] && AllDigits(ds)
    ensures ParseInt("-" + ds) == Some(-(DigitsValue(ds) as int))
  {
    var s := "-" + ds;
    SignNoWs(ds);
    StripPlain(s);
    assert s[0] == '-' && s[1..] == ds;
    var v: int := DigitsValue(ds);
    assert ParseInt(s) == Some(-v);
  }

  lemma SignNoWs(ds: string)
    requires AllDigits(ds)
    ensures NoWs("-" + ds) && NoSeparatorControl("-" + ds)
  {
    var s := "-" + ds;
    DigitsNoWs(ds);
    assert forall i :: 1 <= i < |s| ==> s[i] == ds[i - 1];
  }

  /** What `int` accepts: text without an information separator that, once
      stripped, is one or more ASCII digits with an optional `+` or `-` in
      front. */
  lemma ParseIntSyntax(s: string)
    ensures var t := Strip(s);
            ParseInt(s).Some? <==>
              && NoSeparatorControl(s)
              && (|| (t != [] && AllDigits(t))
                  || (|t| >= 2 && (t[0] == '+' || t[0] == '-') && AllDigits(t[1..])))
  {
    var t := Strip(s);
    if t != [] && AllDigits(t) {
      assert IsDigit(t[0]);
    }
  }

  /** What `int` returns: the whitespace `int` skips around an optionally
      signed run of digits is ignored, and a `-` negates the digits' value. */
  lemma ParseIntSigned(pre: string, sign: string, ds: string, post: string)
    requires AllIntWs(pre) && AllIntWs(post)
    requires sign == "" || sign == "+" || sign == "-"
    requires ds != [] && AllDigits(ds)
    ensures var v: int := DigitsValue(ds);
            ParseInt(pre + sign + ds + post) == Some(if sign == "-" then -v else v)
  {
    var t := sign + ds;
    var s := pre + sign + ds + post;
    assert NoSeparatorControl(s) by {
      forall i | 0 <= i < |s| ensures !IsSeparatorControl(s[i]) {
        if i < |pre| {
          assert s[i] == pre[i];
        } else if i < |pre| + |sign| {
          assert s[i] == sign[i - |pre|];
        } else if i < |pre| + |sign| + |ds| {
          assert s[i] == ds[i - |pre| - |sign|];
        } else {
          assert s[i] == post[i - |pre| - |sign| - |ds|];
        }
      }
    }
    assert Strip(s) == t by {
      assert t[|t| - 1] == ds[|ds| - 1] && IsDigit(ds[|ds| - 1]);
      assert t[0] == (if sign == "" then ds[0] else sign[0]);
      assert IsDigit(ds[0]);
      assert s == pre + t + post;
      StripAround(pre, t, post);
    }
    SignedDigits(s, sign, ds);
  }

  lemma SignedDigits(s: string, sign: string, ds: string)
    requires NoSeparatorControl(s)
    requires sign == "" || sign == "+" || sign == "-"
    requires ds != [] && AllDigits(ds) && Strip(s) == sign + ds
    ensures var v: int := DigitsValue(ds);
            ParseInt(s) == Some(if sign == "-" then -v else v)
  {
    var t := Strip(s);
    var signed := t != [] && (t[0] == '-' || t[0] == '+');
    assert signed <==> sign != "" by {
      if sign == "" { assert t[0] == ds[0] && IsDigit(ds[0]); } else { assert t[0] == sign[0]; }
    }
    var d := if signed then t[1..] else t;
    assert d == ds;
    var v: int := DigitsValue(d);
    assert ParseInt(s) == Some(if signed && t[0] == '-' then -v else v);
    assert signed && t[0] == '-' <==> sign == "-";
  }

  /** Text that is not an optionally signed run of digits is rejected, and
      so is a number after an information separator, which `strip` would
      remove. */
  lemma ParseIntRejects()
    ensures ParseInt("") == None && ParseInt("+") == None
    ensures ParseInt("12a") == None && ParseInt("1 2") == None
    ensures ParseInt("\U{1c}5") == None
  {
    assert IsSeparatorControl("\U{1c}5"[0]);
    assert !IsDigit("12a"[2]);
    assert !IsDigit("1 2"[1]);
    assert Strip("12a") == "12a" by {
      assert SkipWs("12a") == "12a";
      assert StripEnd("12a") == "12a";
    }
    assert Strip("1 2") == "1 2" by {
      assert SkipWs("1 2") == "1 2";
      assert StripEnd("1 2") == "1 2";
    }
    assert Strip("+") == "+" by {
      assert SkipWs("+") == "+";
      assert StripEnd("+") == "+";
    }
    assert "+"[1..] == [];
  }

  /** A letter in the year makes `parse_ymd` fail on the year. */
  lemma YmdRejectsLetter()
    ensures ParseYmd("1A960531") == Failure(NotAnInteger(Some("1A96")))
  {
    assert Slice("1A960531", 0, 4) == "1A96";
    assert !IsDigit("1A96"[1]);
    assert Strip("1A96") == "1A96" by {
      assert SkipWs("1A96") == "1A96";
      assert StripEnd("1A96") == "1A96";
    }
  }

  /** `parse_ymd` reads back a year of four digits, a month of two and a day
      of any positive number of digits. */
  lemma ParseYmdDecimal(y: nat, m: nat, d: nat, k: nat)
    requires y < 10000 && m < 100 && 1 <= k && d < Pow10(k)
    ensures ParseYmd(Decimal(y, 4) + Decimal(m, 2) + Decimal(d, k)) == Success(YMD(y, m, d))
  {
    var ys, ms, ds := Decimal(y, 4), Decimal(m, 2), Decimal(d, k);
    YmdSlices(ys, ms, ds);
    IntOfDecimal(y, 4);
    IntOfDecimal(m, 2);
    IntOfDecimal(d, k);
  }

  /** The three slices `parse_ymd` takes of a year, a month and a day. */
  lemma YmdSlices(ys: string, ms: string, ds: string)
    requires |ys| == 4 && |ms| == 2
    ensures var text := ys + ms + ds;
            Slice(text, 0, 4) == ys && Slice(text, 4, 6) == ms && Slice(text, 6, |text|) == ds
  {
    var text := ys + ms + ds;
    assert text[..4] == ys;
    assert text[4..6] == ms;
    assert text[6..] == ds;
  }

  lemma IntOfDecimal(n: nat, w: nat)
    requires 1 <= w && n < Pow10(w)
    ensures IntOf(Decimal(n, w)) == Success(n)
  {
    ParseDecimal(n, w);
  }

  /** `s.split(sep)[-1]` ignores everything before a separator. */
  lemma {:induction false} SplitLast(a: string, sep: char, b: string)
    ensures var r := Split(a + [sep] + b, sep); var q := Split(b, sep);
            |r| >= 2 && r[|r| - 1] == q[|q| - 1]
    decreases |a|
  {
    var s := a + [sep] + b;
    if a == [] {
      assert s == [sep] + b;
      assert s[1..] == b;
    } else {
      assert s[0] == a[0];
      assert s[1..] == a[1..] + [sep] + b;
      SplitLast(a[1..], sep, b);
    }
  }

  /** For an id `prefix_DATE.suffix` whose last `_` precedes `DATE`, the date
      string is `DATE`. */
  lemma DateStringOf(prefix: string, date: string, suffix: string)
    requires '_' !in date && '.' !in date && '_' !in suffix
    ensures DateString(prefix + "_" + date + "." + suffix) == date
  {
    var tail := date + "." + suffix;
    assert prefix + "_" + date + "." + suffix == prefix + ['_'] + tail;
    SplitLast(prefix, '_', tail);
    assert '_' !in tail;
    SplitNoSep(tail, '_');
    assert tail == date + ['.'] + suffix;
    SplitAfterPiece(date, '.', suffix);
  }

  /** The date of an id `prefix_YYYYMMDD.suffix`, with a day of any positive
      number of digits and no `_` after the date, is the date it spells. */
  lemma DateOfId(prefix: string, y: nat, m: nat, d: nat, k: nat, suffix: string)
    requires y < 10000 && m < 100 && 1 <= k && d < Pow10(k) && '_' !in suffix
    ensures DateOf(prefix + "_" + Decimal(y, 4) + Decimal(m, 2) + Decimal(d, k) + "." + suffix)
            == Success(YMD(y, m, d))
  {
    var date := Decimal(y, 4) + Decimal(m, 2) + Decimal(d, k);
    assert prefix + "_" + Decimal(y, 4) + Decimal(m, 2) + Decimal(d, k) + "." + suffix
           == prefix + "_" + date + "." + suffix;
    DecimalNoSeparator(y, m, d, k);
    DateStringOf(prefix, date, suffix);
    ParseYmdDecimal(y, m, d, k);
  }

  lemma DecimalNoSeparator(y: nat, m: nat, d: nat, k: nat)
    requires y < 10000 && m < 100 && d < Pow10(k)
    ensures var date := Decimal(y, 4) + Decimal(m, 2) + Decimal(d, k);
            '_' !in date && '.' !in date
  {
    var date := Decimal(y, 4) + Decimal(m, 2) + Decimal(d, k);
    forall i | 0 <= i < |date| ensures date[i] != '_' && date[i] != '.' {
      assert IsDigit(date[i]);
    }
  }

  /** `XYZ_ENG_19960531.0001` is dated 31 May 1996. */
  lemma DateExample()
    ensures DateOf("XYZ_ENG_19960531.0001") == Success(YMD(1996, 5, 31))
  {
    assert "XYZ_ENG_19960531.0001" == "XYZ_ENG" + "_" + "19960531" + "." + "0001";
    DateStringOf("XYZ_ENG", "19960531", "0001");
    YmdExample();
  }

  lemma YmdExample()
    ensures ParseYmd("19960531") == Success(YMD(1996, 5, 31))
  {
    DecimalExample();
    ParseYmdDecimal(1996, 5, 31, 2);
  }

  lemma DecimalExample()
    ensures Decimal(1996, 4) + Decimal(5, 2) + Decimal(31, 2) == "19960531"
  {
    YearDigits();
    MonthDayDigits();
  }

  lemma MonthDayDigits()
    ensures Decimal(5, 2) == "05" && Decimal(31, 2) == "31"
  {
    assert Decimal(0, 1) == "0";
    assert Decimal(3, 1) == "3";
  }

  lemma YearDigits()
    ensures Decimal(1996, 4) == "1996"
  {
    assert Decimal(1, 1) == "1";
    assert Decimal(19, 2) == "19";
    assert Decimal(199, 3) == "199";
  }
}

=== FILE: Documents.dfy ===
/** Turning one `DOC` element into a document (gigaword/__init__.py:99-143),
    with the five switches that turn the optional parts off. */
module Documents {
  import opened Wrappers
  import opened Lisp
  import opened Dates
  import opened Xml
  import opened Annotations

  datatype Document = Document(
    id: string,
    date: YMD,
    kind: string,                       // the `type` attribute
    headline: Option<Expr>,
    dateline: Option<Expr>,
    text: Option<seq<Expr>>,
    sentences: seq<Sentence>,
    coreferences: seq<seq<Mention>>)

  /** The keyword switches of `read_file`. */
  datatype Options = Options(headline: bool, dateline: bool, coreferences: bool, sentences: bool, text: bool)

  /** The defaults: every part is read. */
  const AllParts := Options(true, true, true, true, true)

  /** An optional part: read when the element is there and its switch is on,
      otherwise absent. */
  function Part<T>(found: Option<Element>, on: bool, read: Element -> Result<T, Error>): (r: Result<Option<T>, Error>)
    ensures !on || found.None? ==> r == Success(None)
    ensures on && found.Some? ==>
              && (r.Success? <==> read(found.value).Success?)
              && (r.Success? ==> r.value == Some(read(found.value).value))
  {
    if found.Some? && on then
      var v :- read(found.value);
      Success(Some(v))
    else
      Success(None)
  }

  /** `v` is what an optional part should hold: present exactly when its
      switch is on and its element is found, and then what the element reads
      as. */
  ghost predicate ReadAs<T>(found: Option<Element>, on: bool, read: Element -> Result<T, Error>, v: Option<T>) {
    && (v.Some? <==> on && found.Some?)
    && (v.Some? ==> read(found.value) == Success(v.value))
  }

  /** An optional part that makes the document fail: switched on, found, and
      unreadable. */
  predicate Fails<T>(found: Option<Element>, on: bool, read: Element -> Result<T, Error>) {
    on && found.Some? && read(found.value).Failure?
  }

  function OrEmpty<T>(o: Option<seq<T>>): seq<T> {
    if o.Some? then o.value else []
  }

  /** The four optional parts of a document. */
  datatype Parts = Parts(headline: Option<Expr>, dateline: Option<Expr>, chains: Option<seq<seq<Mention>>>,
                         sentences: Option<seq<Sentence>>, text: Option<seq<Expr>>)

  /** No optional part that is switched on and found fails to read. */
  predicate PartsRead(doc: Element, opts: Options, readText: Element -> Result<seq<Expr>, Error>) {
    LeadingPartsRead(doc, opts) && !Fails(Find(doc, "TEXT"), opts.text, readText)
  }

  /** The four parts read before the text, lines 103-127, do not fail. */
  predicate LeadingPartsRead(doc: Element, opts: Options) {
    && !Fails(Find(doc, "HEADLINE"), opts.headline, LispText)
    && !Fails(Find(doc, "DATELINE"), opts.dateline, LispText)
    && !Fails(Find(doc, "coreferences"), opts.coreferences, ParseChains)
    && !Fails(Find(doc, "sentences"), opts.sentences, SentencesOf)
  }

  /** Lines 103-133: each optional part in source order. */
  function ReadParts(doc: Element, opts: Options, readText: Element -> Result<seq<Expr>, Error>): (r: Result<Parts, Error>)
    ensures r.Success? <==> PartsRead(doc, opts, readText)
    ensures LeadingPartsRead(doc, opts) && Fails(Find(doc, "TEXT"), opts.text, readText) ==>
              r == Failure(readText(Find(doc, "TEXT").value).error)
    ensures r.Success? ==>
              && ReadAs(Find(doc, "HEADLINE"), opts.headline, LispText, r.value.headline)
              && ReadAs(Find(doc, "DATELINE"), opts.dateline, LispText, r.value.dateline)
              && ReadAs(Find(doc, "coreferences"), opts.coreferences, ParseChains, r.value.chains)
              && ReadAs(Find(doc, "sentences"), opts.sentences, SentencesOf, r.value.sentences)
              && ReadAs(Find(doc, "TEXT"), opts.text, readText, r.value.text)
  {
    Gather(Find(doc, "HEADLINE"), Find(doc, "DATELINE"), Find(doc, "coreferences"), Find(doc, "sentences"),
           Find(doc, "TEXT"), opts, LispText, ParseChains, SentencesOf, readText)
  }

  /** `ReadParts` over any readers of the parts, in the same order. */
  function Gather(h: Option<Element>, d: Option<Element>, c: Option<Element>, s: Option<Element>, t: Option<Element>,
                  opts: Options, lisp: Element -> Result<Expr, Error>, chains: Element -> Result<seq<seq<Mention>>, Error>,
                  sentences: Element -> Result<seq<Sentence>, Error>, text: Element -> Result<seq<Expr>, Error>)
    : (r: Result<Parts, Error>)
    ensures r.Success? <==>
              && !Fails(h, opts.headline, lisp) && !Fails(d, opts.dateline, lisp)
              && !Fails(c, opts.coreferences, chains) && !Fails(s, opts.sentences, sentences)
              && !Fails(t, opts.text, text)
    ensures (&& !Fails(h, opts.headline, lisp) && !Fails(d, opts.dateline, lisp)
             && !Fails(c, opts.coreferences, chains) && !Fails(s, opts.sentences, sentences)
             && Fails(t, opts.text, text)) ==> r == Failure(text(t.value).error)
    ensures r.Success? ==>
              && ReadAs(h, opts.headline, lisp, r.value.headline)
              && ReadAs(d, opts.dateline, lisp, r.value.dateline)
              && ReadAs(c, opts.coreferences, chains, r.value.chains)
              && ReadAs(s, opts.sentences, sentences, r.value.sentences)
              && ReadAs(t, opts.text, text, r.value.text)
  {
    PartSpec(h, opts.headline, lisp);
    PartSpec(d, opts.dateline, lisp);
    PartSpec(c, opts.coreferences, chains);
    PartSpec(s, opts.sentences, sentences);
    PartSpec(t, opts.text, text);
    var headline :- Part(h, opts.headline, lisp);
    var dateline :- Part(d, opts.dateline, lisp);
    var chainsRead :- Part(c, opts.coreferences, chains);
    var sentencesRead :- Part(s, opts.sentences, sentences);
    var textRead :- Part(t, opts.text, text);
    Success(Parts(headline, dateline, chainsRead, sentencesRead, textRead))
  }

  /** `Part` fails exactly when the part `Fails`, and otherwise holds what the
      part should. */
  lemma PartSpec<T>(found: Option<Element>, on: bool, read: Element -> Result<T, Error>)
    ensures Part(found, on, read).Success? <==> !Fails(found, on, read)
    ensures Part(found, on, read).Success? ==> ReadAs(found, on, read, Part(found, on, read).value)
  {
  }

  /** The body of the loop in `read_file` for one `DOC` element, with the
      TEXT reader as a parameter: the id, its date, the optional parts, then
      the `type` attribute when the tuple is built. A part that is switched
      off or absent takes its empty value. */
  function Build(doc: Element, opts: Options, readText: Element -> Result<seq<Expr>, Error>): (r: Result<Document, Error>)
    ensures "id" !in doc.attrib ==> r == Failure(MissingAttribute("id"))
    ensures "id" in doc.attrib && DateOf(doc.attrib["id"]).Failure? ==> r == Failure(DateOf(doc.attrib["id"]).error)
    ensures r.Success? <==>
              && "id" in doc.attrib && DateOf(doc.attrib["id"]).Success?
              && PartsRead(doc, opts, readText)
              && "type" in doc.attrib
    ensures ("id" in doc.attrib && DateOf(doc.attrib["id"]).Success? && PartsRead(doc, opts, readText)
             && "type" !in doc.attrib) ==> r == Failure(MissingAttribute("type"))
    ensures ("id" in doc.attrib && DateOf(doc.attrib["id"]).Success? && LeadingPartsRead(doc, opts)
             && Fails(Find(doc, "TEXT"), opts.text, readText)) ==> r == Failure(readText(Find(doc, "TEXT").value).error)
    ensures r.Success? ==>
              && r.value.id == doc.attrib["id"]
              && r.value.kind == doc.attrib["type"]
              && DateOf(r.value.id) == Success(r.value.date)
    ensures r.Success? ==>
              && ReadAs(Find(doc, "HEADLINE"), opts.headline, LispText, r.value.headline)
              && ReadAs(Find(doc, "DATELINE"), opts.dateline, LispText, r.value.dateline)
              && ReadAs(Find(doc, "TEXT"), opts.text, readText, r.value.text)
    ensures r.Success? ==>
              if opts.coreferences && Find(doc, "coreferences").Some?
              then ParseChains(Find(doc, "coreferences").value) == Success(r.value.coreferences)
              else r.value.coreferences == []
    ensures r.Success? ==>
              if opts.sentences && Find(doc, "sentences").Some?
              then SentencesOf(Find(doc, "sentences").value) == Success(r.value.sentences)
              else r.value.sentences == []
  {
    var id :- Attr(doc, "id");
    var date :- DateOf(id);
    var parts :- ReadParts(doc, opts, readText);
    var kind :- Attr(doc, "type");
    Success(Assemble(id, date, kind, parts))
  }

  function Assemble(id: string, date: YMD, kind: string, p: Parts): Document {
    Document(id, date, kind, p.headline, p.dateline, p.text, OrEmpty(p.sentences), OrEmpty(p.chains))
  }

  /** The children of `sentences`, each read as a sentence. */
  function SentencesOf(el: Element): (r: Result<seq<Sentence>, Error>)
    ensures r.Success? <==> forall i :: 0 <= i < |el.children| ==> ParseSentence(el.children[i]).Success?
    ensures r.Success? ==>
              && |r.value| == |el.children|
              && forall i :: 0 <= i < |el.children| ==> ParseSentence(el.children[i]) == Success(r.value[i])
  {
    MapAll(el.children, ParseSentence)
  }

  /** A document read with the TEXT part going through `parse_text`, as the
      loop evidently means to. */
  function ParseDocument(doc: Element, opts: Options): (r: Result<Document, Error>)
    ensures r.Success? && r.value.text.Some? ==>
              Find(doc, "TEXT").Some? && ParseText(Find(doc, "TEXT").value) == Success(r.value.text.value)
  {
    Build(doc, opts, ParseText)
  }

  /** What line 131 does as written: inside `read_file` the name
      `parse_text` is the boolean switch, so calling it raises TypeError. */
  function CallSwitch(el: Element): Result<seq<Expr>, Error> {
    Failure(NotCallable)
  }

  /** The document loop as written: once the id, the date and the four parts
      before the text have read, a switched-on TEXT element makes it fail,
      whatever TEXT holds and whether or not there is a type. It succeeds
      only where no TEXT is read. */
  function ParseDocumentAsWritten(doc: Element, opts: Options): (r: Result<Document, Error>)
    ensures r.Success? ==> (!opts.text || Find(doc, "TEXT").None?) && r.value.text.None?
    ensures ("id" in doc.attrib && DateOf(doc.attrib["id"]).Success? && LeadingPartsRead(doc, opts)
             && opts.text && Find(doc, "TEXT").Some?) ==> r == Failure(NotCallable)
  {
    Build(doc, opts, CallSwitch)
  }

  // ---------------------------------------------------------------------
  // The switches

  /** Turning the headline off never adds an error, drops the headline and
      changes nothing else. */
  lemma HeadlineOff(doc: Element, opts: Options, readText: Element -> Result<seq<Expr>, Error>)
    requires Build(doc, opts, readText).Success?
    ensures Build(doc, opts.(headline := false), readText)
            == Success(Build(doc, opts, readText).value.(headline := None))
  {
    var p := ReadParts(doc, opts, readText);
    var q := ReadParts(doc, opts.(headline := false), readText);
    assert q == Success(p.value.(headline := None));
  }

  lemma DatelineOff(doc: Element, opts: Options, readText: Element -> Result<seq<Expr>, Error>)
    requires Build(doc, opts, readText).Success?
    ensures Build(doc, opts.(dateline := false), readText)
            == Success(Build(doc, opts, readText).value.(dateline := None))
  {
    var p := ReadParts(doc, opts, readText);
    var q := ReadParts(doc, opts.(dateline := false), readText);
    assert q == Success(p.value.(dateline := None));
  }

  lemma CoreferencesOff(doc: Element, opts: Options, readText: Element -> Result<seq<Expr>, Error>)
    requires Build(doc, opts, readText).Success?
    ensures Build(doc, opts.(coreferences := false), readText)
            == Success(Build(doc, opts, readText).value.(coreferences := []))
  {
    var p := ReadParts(doc, opts, readText);
    var q := ReadParts(doc, opts.(coreferences := false), readText);
    assert q == Success(p.value.(chains := None));
  }

  lemma SentencesOff(doc: Element, opts: Options, readText: Element -> Result<seq<Expr>, Error>)
    requires Build(doc, opts, readText).Success?
    ensures Build(doc, opts.(sentences := false), readText)
            == Success(Build(doc, opts, readText).value.(sentences := []))
  {
    var p := ReadParts(doc, opts, readText);
    var q := ReadParts(doc, opts.(sentences := false), readText);
    assert q == Success(p.value.(sentences := None));
  }

  lemma TextOff(doc: Element, opts: Options, readText: Element -> Result<seq<Expr>, Error>)
    requires Build(doc, opts, readText).Success?
    ensures Build(doc, opts.(text := false), readText)
            == Success(Build(doc, opts, readText).value.(text := None))
  {
    var p := ReadParts(doc, opts, readText);
    var q := ReadParts(doc, opts.(text := false), readText);
    assert q == Success(p.value.(text := None));
  }

  /** With the TEXT switch off or no TEXT element, the loop as written and
      as intended agree. */
  lemma AsWrittenWithoutText(doc: Element, opts: Options)
    requires !opts.text || Find(doc, "TEXT").None?
    ensures ParseDocumentAsWritten(doc, opts) == ParseDocument(doc, opts)
  {
    assert ReadParts(doc, opts, CallSwitch) == ReadParts(doc, opts, ParseText) by {
      assert Part(Find(doc, "TEXT"), opts.text, CallSwitch) == Success(None);
      assert Part(Find(doc, "TEXT"), opts.text, ParseText) == Success(None);
    }
  }

  /** A document of the corpus shape: an id carrying its date, a type and a
      one-paragraph text. */
  function SampleDoc(): Element {
    Element("DOC", map["id" := "XYZ_ENG_19960531.0001", "type" := "story"], None,
            [Element("TEXT", map[], Some("Hello"), [])])
  }

  /** The sample document is read with its defaults as intended, and the
      loop as written rejects it. */
  lemma SampleDocExample()
    ensures ParseDocument(SampleDoc(), AllParts)
            == Success(Document("XYZ_ENG_19960531.0001", YMD(1996, 5, 31), "story",
                                None, None, Some([Atom("Hello")]), [], []))
    ensures ParseDocumentAsWritten(SampleDoc(), AllParts) == Failure(NotCallable)
  {
    DateExample();
    SampleParts();
  }

  lemma SampleParts()
    ensures ReadParts(SampleDoc(), AllParts, ParseText) == Success(Parts(None, None, None, None, Some([Atom("Hello")])))
    ensures ReadParts(SampleDoc(), AllParts, CallSwitch) == Failure(NotCallable)
  {
    SampleFinds();
    SampleText();
  }

  lemma SampleFinds()
    ensures Find(SampleDoc(), "HEADLINE").None? && Find(SampleDoc(), "DATELINE").None?
    ensures Find(SampleDoc(), "coreferences").None? && Find(SampleDoc(), "sentences").None?
    ensures Find(SampleDoc(), "TEXT") == Some(SampleDoc().children[0])
  {
    var doc := SampleDoc();
    FindSpec(doc, "HEADLINE");
    FindSpec(doc, "DATELINE");
    FindSpec(doc, "coreferences");
    FindSpec(doc, "sentences");
    FindSpec(doc, "TEXT");
  }

  lemma SampleText()
    ensures ParseText(SampleDoc().children[0]) == Success([Atom("Hello")])
  {
    assert Render(Atom("Hello")) == "Hello" by {
      assert Serialize(Atom("Hello")) == ["Hello"];
    }
    PlainTextRoundTrip(Atom("Hello"), map[]);
  }
}

=== FILE: Grouping.dfy ===
/** `group_ne_tokens` (gigaword/utils.py:4-7): runs of consecutive tokens
    with the same named-entity tag, as `itertools.groupby` forms them, minus
    the runs whose tag is to be skipped. */
module Grouping {
  import opened Wrappers
  import opened Annotations

  /** One run: its tag and its tokens. */
  datatype Group = Group(tag: Option<string>, tokens: seq<Token>)

  /** A run is non-empty and every token in it carries the run's tag. */
  predicate Homogeneous(g: Group) {
    g.tokens != [] && forall i :: 0 <= i < |g.tokens| ==> g.tokens[i].ner == g.tag
  }

  /** Consecutive runs have different tags, so no run can be extended. */
  predicate Maximal(gs: seq<Group>) {
    forall i :: 0 <= i < |gs| - 1 ==> gs[i].tag != gs[i + 1].tag
  }

  function Flatten(gs: seq<Group>): seq<Token> {
    if gs == [] then [] else gs[0].tokens + Flatten(gs[1..])
  }

  /** `itertools.groupby(tokens, key=lambda t: t.ner)`. */
  function Runs(tokens: seq<Token>): (r: seq<Group>)
    ensures forall i :: 0 <= i < |r| ==> Homogeneous(r[i])
    ensures Flatten(r) == tokens
    ensures Maximal(r)
    ensures tokens != [] ==> r != [] && r[0].tag == tokens[0].ner
  {
    if tokens == [] then []
    else
      var t := tokens[0];
      var rest := Runs(tokens[1..]);
      if rest != [] && rest[0].tag == t.ner then
        var g := Group(t.ner, [t] + rest[0].tokens);
        var r := [g] + rest[1..];
        assert r[1..] == rest[1..];
        assert Flatten(rest) == rest[0].tokens + Flatten(rest[1..]);
        assert forall i :: 1 <= i < |g.tokens| ==> g.tokens[i] == rest[0].tokens[i - 1];
        assert forall i :: 1 <= i < |r| ==> r[i] == rest[i];
        r
      else
        var r := [Group(t.ner, [t])] + rest;
        assert r[1..] == rest;
        r
  }

  /** Drops the runs whose tag is in `skip`, keeping the order of the rest. */
  function Keep(gs: seq<Group>, skip: set<Option<string>>): (r: seq<Group>)
    ensures |r| <= |gs|
    ensures forall g :: g in r <==> g in gs && g.tag !in skip
  {
    if gs == [] then []
    else
      var r := (if gs[0].tag in skip then [] else [gs[0]]) + Keep(gs[1..], skip);
      assert forall g :: g in gs <==> g == gs[0] || g in gs[1..];
      r
  }

  /** `group_ne_tokens(sentence, skip_tags)`: the runs of the sentence's
      tokens whose tag is not skipped. */
  function GroupNeTokens(s: Sentence, skip: set<Option<string>>): (r: seq<Group>)
    ensures forall i :: 0 <= i < |r| ==> Homogeneous(r[i]) && r[i].tag !in skip
    ensures forall g :: g in r <==> g in Runs(s.tokens) && g.tag !in skip
  {
    var r := Keep(Runs(s.tokens), skip);
    assert forall i :: 0 <= i < |r| ==> r[i] in Runs(s.tokens);
    r
  }

  // ---------------------------------------------------------------------
  // Lemmas

  /** Runs are the only maximal split into homogeneous runs: any other split
      with those properties is the one `groupby` makes. */
  lemma {:induction false} RunsUnique(gs: seq<Group>)
    requires forall i :: 0 <= i < |gs| ==> Homogeneous(gs[i])
    requires Maximal(gs)
    ensures Runs(Flatten(gs)) == gs
    decreases |gs|
  {
    if gs != [] {
      var rest := gs[1..];
      assert Maximal(rest) by {
        assert forall i :: 0 <= i < |rest| ==> rest[i] == gs[i + 1];
      }
      assert forall i :: 0 <= i < |rest| ==> Homogeneous(rest[i]) by {
        assert forall i :: 0 <= i < |rest| ==> rest[i] == gs[i + 1];
      }
      RunsUnique(rest);
      if rest != [] {
        assert rest[0] == gs[1];
      }
      RunsPrepend(gs[0], rest);
      assert gs == [gs[0]] + rest;
    }
  }

  /** A run placed in front of a tokens sequence whose runs start with a
      different tag becomes a run of its own. */
  lemma {:induction false} RunsPrepend(g: Group, rest: seq<Group>)
    requires Homogeneous(g)
    requires Runs(Flatten(rest)) == rest
    requires rest == [] || rest[0].tag != g.tag
    ensures Runs(g.tokens + Flatten(rest)) == [g] + rest
    decreases |g.tokens|
  {
    var ts := g.tokens + Flatten(rest);
    assert ts[0] == g.tokens[0];
    assert ts[1..] == g.tokens[1..] + Flatten(rest);
    if |g.tokens| == 1 {
      assert g.tokens[1..] + Flatten(rest) == Flatten(rest);
      assert g == Group(ts[0].ner, [ts[0]]);
    } else {
      var h := Group(g.tag, g.tokens[1..]);
      RunsPrepend(h, rest);
      assert [ts[0]] + h.tokens == g.tokens;
    }
  }

  /** Flattening distributes over concatenation. */
  lemma {:induction false} FlattenAppend(a: seq<Group>, b: seq<Group>)
    ensures Flatten(a + b) == Flatten(a) + Flatten(b)
    decreases |a|
  {
    if a == [] {
      assert a + b == b;
    } else {
      assert (a + b)[0] == a[0];
      assert (a + b)[1..] == a[1..] + b;
      FlattenAppend(a[1..], b);
    }
  }

  lemma {:induction false} KeepNothing(gs: seq<Group>)
    ensures Keep(gs, {}) == gs
    decreases |gs|
  {
    if gs != [] {
      KeepNothing(gs[1..]);
      assert [gs[0]] + gs[1..] == gs;
    }
  }

  /** With nothing skipped, the groups put back together are the sentence's
      tokens. */
  lemma NoSkipGivesTokensBack(s: Sentence)
    ensures GroupNeTokens(s, {}) == Runs(s.tokens)
    ensures Flatten(GroupNeTokens(s, {})) == s.tokens
  {
    KeepNothing(Runs(s.tokens));
  }

  /** A sentence without tokens has no groups. */
  lemma EmptySentenceNoGroups(s: Sentence, skip: set<Option<string>>)
    requires s.tokens == []
    ensures GroupNeTokens(s, skip) == []
  {
  }

  /** Skipped groups leave exactly the other groups, and the tokens kept are
      those whose tag is not skipped. */
  lemma {:induction false} KeptTokens(gs: seq<Group>, skip: set<Option<string>>)
    requires forall i :: 0 <= i < |gs| ==> Homogeneous(gs[i])
    ensures forall t :: t in Flatten(Keep(gs, skip)) <==> t in Flatten(gs) && t.ner !in skip
    decreases |gs|
  {
    if gs != [] {
      assert forall i :: 0 <= i < |gs[1..]| ==> gs[1..][i] == gs[i + 1];
      KeptTokens(gs[1..], skip);
      var g := gs[0];
      var k := if g.tag in skip then [] else [g];
      assert Keep(gs, skip) == k + Keep(gs[1..], skip);
      FlattenAppend(k, Keep(gs[1..], skip));
      assert Flatten(gs) == g.tokens + Flatten(gs[1..]);
      assert Flatten([g]) == g.tokens by {
        assert [g][1..] == [];
      }
      forall t | t in g.tokens ensures t.ner == g.tag {
        var i :| 0 <= i < |g.tokens| && g.tokens[i] == t;
      }
    }
  }

  /** The named-entity tokens of a sentence: the groups put back together
      are the sentence's tokens whose tag is not skipped, in sentence order. */
  lemma GroupedTokens(s: Sentence, skip: set<Option<string>>)
    ensures Flatten(GroupNeTokens(s, skip)) == FilterTokens(s.tokens, skip)
    ensures forall t :: t in Flatten(GroupNeTokens(s, skip)) <==> t in s.tokens && t.ner !in skip
  {
    KeptTokens(Runs(s.tokens), skip);
    KeepFilter(Runs(s.tokens), skip);
  }

  /** The tokens whose tag is not skipped, in order: a filter on tokens that
      knows nothing of runs. */
  function FilterTokens(ts: seq<Token>, skip: set<Option<string>>): (r: seq<Token>)
    ensures |r| <= |ts|
    ensures forall t :: t in r ==> t in ts && t.ner !in skip
  {
    if ts == [] then []
    else (if ts[0].ner in skip then [] else [ts[0]]) + FilterTokens(ts[1..], skip)
  }

  lemma {:induction false} FilterAppend(a: seq<Token>, b: seq<Token>, skip: set<Option<string>>)
    ensures FilterTokens(a + b, skip) == FilterTokens(a, skip) + FilterTokens(b, skip)
    decreases |a|
  {
    if a == [] {
      assert a + b == b;
    } else {
      assert (a + b)[0] == a[0];
      assert (a + b)[1..] == a[1..] + b;
      FilterAppend(a[1..], b, skip);
    }
  }

  /** Tokens that all carry one tag are kept whole or dropped whole. */
  lemma {:induction false} FilterSameTag(ts: seq<Token>, tag: Option<string>, skip: set<Option<string>>)
    requires forall i :: 0 <= i < |ts| ==> ts[i].ner == tag
    ensures FilterTokens(ts, skip) == if tag in skip then [] else ts
    decreases |ts|
  {
    if ts != [] {
      assert forall i :: 0 <= i < |ts[1..]| ==> ts[1..][i] == ts[i + 1];
      FilterSameTag(ts[1..], tag, skip);
      assert [ts[0]] + ts[1..] == ts;
    }
  }

  /** Dropping skipped runs and then flattening filters the flattened tokens. */
  lemma {:induction false} KeepFilter(gs: seq<Group>, skip: set<Option<string>>)
    requires forall i :: 0 <= i < |gs| ==> Homogeneous(gs[i])
    ensures Flatten(Keep(gs, skip)) == FilterTokens(Flatten(gs), skip)
    decreases |gs|
  {
    if gs != [] {
      var g := gs[0];
      assert forall i :: 0 <= i < |gs[1..]| ==> gs[1..][i] == gs[i + 1];
      KeepFilter(gs[1..], skip);
      var k := if g.tag in skip then [] else [g];
      assert Keep(gs, skip) == k + Keep(gs[1..], skip);
      FlattenAppend(k, Keep(gs[1..], skip));
      assert Flatten([g]) == g.tokens by {
        assert [g][1..] == [];
      }
      assert Flatten(gs) == g.tokens + Flatten(gs[1..]);
      FilterAppend(g.tokens, Flatten(gs[1..]), skip);
      FilterSameTag(g.tokens, g.tag, skip);
    }
  }

  /** `group_ne_tokens` keeps the runs in sentence order, each once: its
      `k`-th group is the run at the `k`-th position whose tag is not skipped. */
  lemma GroupNeTokensInOrder(s: Sentence, skip: set<Option<string>>)
    ensures var gs := Runs(s.tokens);
            var ps := KeptPositions(gs, skip, 0);
            var r := GroupNeTokens(s, skip);
            && |r| == |ps|
            && (forall k :: 0 <= k < |ps| ==> ps[k] < |gs| && r[k] == gs[ps[k]])
            && Increasing(ps)
            && (forall j :: 0 <= j < |gs| ==> (gs[j].tag !in skip <==> j in ps))
  {
    var gs := Runs(s.tokens);
    KeepPositions(gs, skip, 0);
    assert gs[0..] == gs;
    KeptBounded(gs, skip, 0);
    KeptIncreasing(gs, skip, 0);
    KeptComplete(gs, skip, 0);
  }

  /** The positions, from `i` on, of the runs whose tag is not skipped. */
  function KeptPositions(gs: seq<Group>, skip: set<Option<string>>, i: nat): seq<nat>
    requires i <= |gs|
    decreases |gs| - i
  {
    if i == |gs| then [] else (if gs[i].tag in skip then [] else [i]) + KeptPositions(gs, skip, i + 1)
  }

  lemma {:induction false} KeptBounded(gs: seq<Group>, skip: set<Option<string>>, i: nat)
    requires i <= |gs|
    ensures forall p :: p in KeptPositions(gs, skip, i) ==> i <= p < |gs| && gs[p].tag !in skip
    decreases |gs| - i
  {
    if i < |gs| {
      KeptBounded(gs, skip, i + 1);
    }
  }

  lemma {:induction false} KeptIncreasing(gs: seq<Group>, skip: set<Option<string>>, i: nat)
    requires i <= |gs|
    ensures Increasing(KeptPositions(gs, skip, i))
    decreases |gs| - i
  {
    if i < |gs| {
      KeptIncreasing(gs, skip, i + 1);
      var rest := KeptPositions(gs, skip, i + 1);
      if gs[i].tag !in skip {
        KeptBounded(gs, skip, i + 1);
        IncreasingCons(i, rest);
      } else {
        assert KeptPositions(gs, skip, i) == [] + rest;
        assert [] + rest == rest;
      }
    }
  }

  lemma {:induction false} KeptComplete(gs: seq<Group>, skip: set<Option<string>>, i: nat)
    requires i <= |gs|
    ensures forall j :: i <= j < |gs| && gs[j].tag !in skip ==> j in KeptPositions(gs, skip, i)
    decreases |gs| - i
  {
    if i < |gs| {
      KeptComplete(gs, skip, i + 1);
      var rest := KeptPositions(gs, skip, i + 1);
      var h := if gs[i].tag in skip then [] else [i];
      assert KeptPositions(gs, skip, i) == h + rest;
      forall j | i <= j < |gs| && gs[j].tag !in skip ensures j in h + rest {
        if j == i {
          assert (h + rest)[0] == i;
        } else {
          assert j in rest;
        }
      }
    }
  }

  lemma {:induction false} KeepPositions(gs: seq<Group>, skip: set<Option<string>>, i: nat)
    requires i <= |gs|
    ensures var ps := KeptPositions(gs, skip, i);
            var r := Keep(gs[i..], skip);
            |r| == |ps| && forall k :: 0 <= k < |ps| ==> ps[k] < |gs| && r[k] == gs[ps[k]]
    decreases |gs| - i
  {
    if i < |gs| {
      KeepPositions(gs, skip, i + 1);
      var tail := Keep(gs[i + 1..], skip);
      var rest := KeptPositions(gs, skip, i + 1);
      assert gs[i..][0] == gs[i];
      assert gs[i..][1..] == gs[i + 1..];
      if gs[i].tag !in skip {
        assert Keep(gs[i..], skip) == [gs[i]] + tail;
        assert KeptPositions(gs, skip, i) == [i] + rest;
        ShiftOne(i, rest, gs[i], tail, gs);
      } else {
        assert Keep(gs[i..], skip) == [] + tail;
        assert KeptPositions(gs, skip, i) == [] + rest;
        assert [] + rest == rest && [] + tail == tail;
      }
    }
  }

  function Tok(i: string, ner: string): Token {
    Token(i, Some(i), Some(i), 0, 0, Some("NN"), Some(ner))
  }

  function SampleTokens(): seq<Token> {
    [Tok("1", "O"), Tok("2", "O"), Tok("3", "PERSON"), Tok("4", "PERSON"), Tok("5", "O"), Tok("6", "LOCATION")]
  }

  /** `O O PERSON PERSON O LOCATION` with `O` skipped: one PERSON group of
      two tokens, then one LOCATION group. */
  lemma GroupExample()
    ensures GroupNeTokens(Sentence("s", SampleTokens()), {Some("O")})
            == [Group(Some("PERSON"), [Tok("3", "PERSON"), Tok("4", "PERSON")]),
                Group(Some("LOCATION"), [Tok("6", "LOCATION")])]
  {
    SampleRuns();
    SampleKeep();
  }

  function SampleGroups(): seq<Group> {
    var ts := SampleTokens();
    [Group(Some("O"), ts[0..2]), Group(Some("PERSON"), ts[2..4]),
     Group(Some("O"), ts[4..5]), Group(Some("LOCATION"), ts[5..6])]
  }

  lemma SampleKeep()
    ensures Keep(SampleGroups(), {Some("O")})
            == [Group(Some("PERSON"), [Tok("3", "PERSON"), Tok("4", "PERSON")]),
                Group(Some("LOCATION"), [Tok("6", "LOCATION")])]
  {
    var gs := SampleGroups();
    SampleKeepTail();
    SampleGroupsAt();
    assert Keep(gs, {Some("O")}) == [gs[1], gs[3]];
  }

  lemma SampleKeepTail()
    ensures var gs := SampleGroups(); Keep(gs[1..], {Some("O")}) == [gs[1], gs[3]]
  {
    var gs := SampleGroups();
    var skip := {Some("O")};
    assert gs[1..] == [gs[1]] + ([gs[2]] + ([gs[3]] + []));
    KeepCons(gs[3], [], skip);
    KeepCons(gs[2], [gs[3]] + [], skip);
    KeepCons(gs[1], [gs[2]] + ([gs[3]] + []), skip);
  }

  lemma KeepCons(g: Group, gs: seq<Group>, skip: set<Option<string>>)
    ensures Keep([g] + gs, skip) == (if g.tag in skip then [] else [g]) + Keep(gs, skip)
  {
    assert ([g] + gs)[0] == g && ([g] + gs)[1..] == gs;
  }

  lemma SampleGroupsAt()
    ensures SampleGroups()[1] == Group(Some("PERSON"), [Tok("3", "PERSON"), Tok("4", "PERSON")])
    ensures SampleGroups()[3] == Group(Some("LOCATION"), [Tok("6", "LOCATION")])
  {
    var ts := SampleTokens();
    assert ts[2..4] == [Tok("3", "PERSON"), Tok("4", "PERSON")];
    assert ts[5..6] == [Tok("6", "LOCATION")];
  }

  lemma SampleRuns()
    ensures Runs(SampleTokens()) == SampleGroups()
  {
    SampleFlatten();
    RunsUnique(SampleGroups());
  }

  lemma SampleFlatten()
    ensures Flatten(SampleGroups()) == SampleTokens()
  {
    var ts := SampleTokens();
    var gs := SampleGroups();
    var g3 := gs[1..][1..][1..];
    assert g3 == [gs[3]] && g3[1..] == [];
    assert Flatten(g3) == ts[5..6];
    assert Flatten(gs[1..][1..]) == ts[4..5] + ts[5..6];
    assert Flatten(gs[1..]) == ts[2..4] + (ts[4..5] + ts[5..6]);
    assert ts == ts[0..2] + (ts[2..4] + (ts[4..5] + ts[5..6]));
  }
}

=== FILE: Lisp.dfy ===
/** The bracket-expression reader `parse_lisp` (gigaword/__init__.py:28-42):
    parentheses are padded with spaces, whitespace runs collapse, the text is
    split on single spaces, and the tokens are folded over a stack of lists
    that starts with one implicit outer list. */
module Lisp {
  import opened Wrappers
  import opened Strings

  /** A parsed expression: a token, or a tuple of expressions. */
  datatype Expr = Atom(name: string) | Tup(items: seq<Expr>)

  /** The lists under construction; the last one is the top of the stack. */
  type Stack = seq<seq<Expr>>

  predicate IsParen(c: char) { c == '(' || c == ')' }

  /** A string with neither whitespace nor parentheses. */
  predicate Clean(s: string) {
    forall i :: 0 <= i < |s| ==> !IsWs(s[i]) && !IsParen(s[i])
  }

  /** What a token of the reader can look like. */
  predicate TokenOk(t: string) {
    t == "(" || t == ")" || Clean(t)
  }

  /** `s.replace(c, by)` for a one-character pattern. */
  function Replace(s: string, c: char, with: string): string {
    if s == [] then [] else (if s[0] == c then with else [s[0]]) + Replace(s[1..], c, with)
  }

  /** `text.replace('(', ' ( ').replace(')', ' ) ')`. */
  function Pad(text: string): string {
    Replace(Replace(text, '(', " ( "), ')', " ) ")
  }

  /** The token list the fold consumes. */
  function Tokenize(text: string): (r: seq<string>)
    ensures |r| >= 1
    ensures forall i :: 0 <= i < |r| ==> TokenOk(r[i])
  {
    SplitStripCollapse(Pad(text));
    PadIsolated(text);
    IsolatedFields(Pad(text));
    assert Clean("");
    Split(Strip(Collapse(Pad(text))), ' ')
  }

  /** How a token changes the stack height. */
  function Delta(tok: string): int {
    if tok == "(" then 1 else if tok == ")" then -1 else 0
  }

  /** The net change in stack height over a token list. */
  function Balance(toks: seq<string>): int {
    if toks == [] then 0 else Delta(toks[0]) + Balance(toks[1..])
  }

  /** One iteration of the loop: `(` opens a list, `)` closes the top list
      into a tuple appended to the list below it, anything else is appended
      as a token. Closing the only list fails, as `stack[-1]` does on the
      emptied Python list. */
  function Step(st: Stack, tok: string): (r: Result<Stack, Error>)
    requires |st| >= 1
    ensures r.Failure? <==> tok == ")" && |st| == 1
    ensures r.Success? ==> |r.value| == |st| + Delta(tok)
  {
    if tok == "(" then Success(st + [[]])
    else if tok == ")" then
      if |st| == 1 then Failure(UnmatchedClose)
      else Success(st[..|st| - 2] + [st[|st| - 2] + [Tup(st[|st| - 1])]])
    else Success(st[..|st| - 1] + [st[|st| - 1] + [Atom(tok)]])
  }

  /** The loop over all tokens; the first failing step ends it. */
  function Fold(st: Stack, toks: seq<string>): (r: Result<Stack, Error>)
    requires |st| >= 1
    ensures r.Success? ==> |r.value| >= 1 && |r.value| == |st| + Balance(toks)
    decreases |toks|
  {
    if toks == [] then Success(st)
    else match Step(st, toks[0])
      case Failure(e) => Failure(e)
      case Success(st') => Fold(st', toks[1..])
  }

  /** `stack[0][0]` after the loop: the first element of the outer list.
      What it reads, written out again, is exactly the tokens it was read
      from: a prefix of the token list. */
  function ParseTokens(toks: seq<string>): (r: Result<Expr, Error>)
    ensures r.Success? ==> Serialize(r.value) <= toks
  {
    match Fold([[]], toks)
    case Failure(e) => Failure(e)
    case Success(st) =>
      if st[0] == [] then Failure(EmptyOuterList)
      else
        FoldUnparse([[]], toks);
        assert Unparse([[]]) == [];
        assert toks == Unparse(st);
        FirstOfOuter(st);
        Success(st[0][0])
  }

  /** `parse_lisp(text)`. Every token it yields is free of whitespace and
      parentheses. */
  function ParseLisp(text: string): (r: Result<Expr, Error>)
    ensures r.Success? ==> AtomsClean(r.value)
    ensures r.Success? ==> Serialize(r.value) <= Tokenize(text)
  {
    FoldClean([[]], Tokenize(text));
    ParseTokens(Tokenize(text))
  }

  // ---------------------------------------------------------------------
  // Cleanliness of the parsed atoms

  predicate AtomsClean(e: Expr) {
    match e
    case Atom(a) => Clean(a)
    case Tup(es) => forall i :: 0 <= i < |es| ==> AtomsClean(es[i])
  }

  predicate StackClean(st: Stack) {
    forall i, j :: 0 <= i < |st| && 0 <= j < |st[i]| ==> AtomsClean(st[i][j])
  }

  /** Folding tokens that are parentheses or clean words keeps every atom clean. */
  lemma {:induction false} FoldClean(st: Stack, toks: seq<string>)
    requires |st| >= 1 && StackClean(st)
    requires forall i :: 0 <= i < |toks| ==> TokenOk(toks[i])
    ensures Fold(st, toks).Success? ==> StackClean(Fold(st, toks).value)
    decreases |toks|
  {
    if toks != [] {
      var tok := toks[0];
      assert TokenOk(tok);
      var r := Step(st, tok);
      if r.Success? {
        var st' := r.value;
        var n := |st|;
        if tok == "(" {
          assert StackClean(st');
        } else if tok == ")" {
          assert AtomsClean(Tup(st[n - 1]));
          assert StackClean(st');
        } else {
          assert Clean(tok);
          assert StackClean(st');
        }
        FoldClean(st', toks[1..]);
      }
    }
  }

  // ---------------------------------------------------------------------
  // The tokenizer

  lemma {:induction false} ReplaceAppend(a: string, b: string, c: char, with: string)
    ensures Replace(a + b, c, with) == Replace(a, c, with) + Replace(b, c, with)
    decreases |a|
  {
    if a == [] {
      assert a + b == b;
    } else {
      assert (a + b)[0] == a[0];
      assert (a + b)[1..] == a[1..] + b;
      ReplaceAppend(a[1..], b, c, with);
      ConcatAssoc(if a[0] == c then with else [a[0]], Replace(a[1..], c, with), Replace(b, c, with));
    }
  }

  lemma {:induction false} ReplaceAbsent(s: string, c: char, with: string)
    requires c !in s
    ensures Replace(s, c, with) == s
    decreases |s|
  {
    if s != [] {
      ReplaceAbsent(s[1..], c, with);
      assert [s[0]] + s[1..] == s;
    }
  }

  /** Padding works character by character. */
  lemma PadAppend(a: string, b: string)
    ensures Pad(a + b) == Pad(a) + Pad(b)
  {
    ReplaceAppend(a, b, '(', " ( ");
    ReplaceAppend(Replace(a, '(', " ( "), Replace(b, '(', " ( "), ')', " ) ");
  }

  /** Text without parentheses is left alone by the padding. */
  lemma PadPlain(s: string)
    requires forall i :: 0 <= i < |s| ==> !IsParen(s[i])
    ensures Pad(s) == s
  {
    ReplaceAbsent(s, '(', " ( ");
    ReplaceAbsent(s, ')', " ) ");
  }

  lemma PadChar(c: char)
    ensures Pad([c]) == (if c == '(' then " ( " else if c == ')' then " ) " else [c])
  {
    assert [c][1..] == [];
    if c == '(' {
      assert Replace([c], '(', " ( ") == " ( " + [];
      assert " ( " + [] == " ( ";
      ReplaceAbsent(" ( ", ')', " ) ");
      assert Pad([c]) == Replace(" ( ", ')', " ) ");
    } else if c == ')' {
      assert Replace([c], '(', " ( ") == [c];
      assert Replace([c], ')', " ) ") == " ) " + [];
      assert " ) " + [] == " ) ";
    } else {
      PadPlain([c]);
    }
  }

  /** Every parenthesis has whitespace (or the end of the text) on both sides. */
  predicate Isolated(x: string) {
    forall i :: 0 <= i < |x| && IsParen(x[i]) ==>
      (i == 0 || IsWs(x[i - 1])) && (i == |x| - 1 || IsWs(x[i + 1]))
  }

  /** Neither end of the text is a parenthesis. */
  predicate PlainEdges(x: string) {
    x == [] || (!IsParen(x[0]) && !IsParen(x[|x| - 1]))
  }

  lemma IsolatedAppend(a: string, b: string)
    requires Isolated(a) && Isolated(b) && PlainEdges(a) && PlainEdges(b)
    ensures Isolated(a + b) && PlainEdges(a + b)
  {
    var x := a + b;
    forall i | 0 <= i < |x| && IsParen(x[i])
      ensures (i == 0 || IsWs(x[i - 1])) && (i == |x| - 1 || IsWs(x[i + 1]))
    {
      if i < |a| {
        assert x[i] == a[i];
        assert i != |a| - 1;
        assert x[i + 1] == a[i + 1];
        if i > 0 { assert x[i - 1] == a[i - 1]; }
      } else {
        var j := i - |a|;
        assert x[i] == b[j];
        assert j != 0;
        assert x[i - 1] == b[j - 1];
        if j < |b| - 1 { assert x[i + 1] == b[j + 1]; }
      }
    }
  }

  /** After padding, parentheses stand alone. */
  lemma {:induction false} PadIsolated(s: string)
    ensures Isolated(Pad(s)) && PlainEdges(Pad(s))
    decreases |s|
  {
    if s != [] {
      assert s == [s[0]] + s[1..];
      PadAppend([s[0]], s[1..]);
      PadChar(s[0]);
      PadIsolated(s[1..]);
      IsolatedAppend(Pad([s[0]]), Pad(s[1..]));
    }
  }

  lemma IsolatedSuffix(x: string, k: nat)
    requires Isolated(x) && k <= |x|
    ensures Isolated(x[k..])
  {
    var y := x[k..];
    forall i | 0 <= i < |y| && IsParen(y[i])
      ensures (i == 0 || IsWs(y[i - 1])) && (i == |y| - 1 || IsWs(y[i + 1]))
    {
      assert y[i] == x[k + i];
      if i > 0 { assert y[i - 1] == x[k + i - 1]; }
      if i < |y| - 1 { assert y[i + 1] == x[k + i + 1]; }
    }
  }

  /** The word at the front of an isolated text is a lone parenthesis or clean. */
  lemma WordIsolated(t: string)
    requires Isolated(t)
    ensures TokenOk(Word(t))
  {
    var w := Word(t);
    WordSpec(t);
    if !Clean(w) {
      var i :| 0 <= i < |w| && (IsWs(w[i]) || IsParen(w[i]));
      assert t[i] == w[i];
      assert w == [w[0]];
    }
  }

  /** The fields of an isolated text are lone parentheses or clean words. */
  lemma {:induction false} IsolatedFields(x: string)
    requires Isolated(x)
    ensures forall i :: 0 <= i < |Fields(x)| ==> TokenOk(Fields(x)[i])
    decreases |x|
  {
    var t := SkipWs(x);
    SkipWsSpec(x);
    IsolatedSuffix(x, |x| - |t|);
    if t != [] {
      var w := Word(t);
      WordIsolated(t);
      IsolatedSuffix(t, |w|);
      FieldsUnfold(x);
      IsolatedFields(t[|w|..]);
    }
  }

  /** `Tokenize` is Python's `split()` of the padded text, or `['']` when that is empty. */
  lemma TokenizeIsFields(text: string)
    ensures var f := Fields(Pad(text));
            Tokenize(text) == (if f == [] then [""] else f)
  {
    SplitStripCollapse(Pad(text));
  }

  // ---------------------------------------------------------------------
  // Nesting mirrors the parentheses: printing and reading back

  /** An expression that can be written out: atoms are non-empty and clean. */
  predicate WellFormed(e: Expr) {
    match e
    case Atom(a) => a != [] && Clean(a)
    case Tup(es) => forall i :: 0 <= i < |es| ==> WellFormed(es[i])
  }

  predicate AllWellFormed(es: seq<Expr>) {
    forall i :: 0 <= i < |es| ==> WellFormed(es[i])
  }

  function Size(e: Expr): nat {
    match e
    case Atom(_) => 1
    case Tup(es) => 1 + SizeAll(es)
  }

  function SizeAll(es: seq<Expr>): nat {
    if es == [] then 0 else Size(es[0]) + SizeAll(es[1..])
  }

  /** The tokens of an expression: a tuple is its items between `(` and `)`. */
  function Serialize(e: Expr): (r: seq<string>)
    ensures |r| >= 1
  {
    match e
    case Atom(a) => [a]
    case Tup(es) => ["("] + SerializeAll(es) + [")"]
  }

  function SerializeAll(es: seq<Expr>): seq<string> {
    if es == [] then [] else Serialize(es[0]) + SerializeAll(es[1..])
  }

  /** The text of an expression: its tokens joined by single spaces. */
  function Render(e: Expr): string {
    Join(Serialize(e), ' ')
  }

  // ---------------------------------------------------------------------
  // Reading then printing: the stack remembers the tokens it was built from

  /** The tokens that build a stack: the outer list written out, then each
      open list as a `(` followed by its items. */
  function Unparse(st: Stack): seq<string>
    requires |st| >= 1
  {
    if |st| == 1 then SerializeAll(st[0])
    else Unparse(st[..|st| - 1]) + ["("] + SerializeAll(st[|st| - 1])
  }

  lemma {:induction false} SerializeAllSnoc(es: seq<Expr>, e: Expr)
    ensures SerializeAll(es + [e]) == SerializeAll(es) + Serialize(e)
    decreases |es|
  {
    if es == [] {
      assert es + [e] == [e];
      assert [e][1..] == [];
    } else {
      assert (es + [e])[0] == es[0];
      assert (es + [e])[1..] == es[1..] + [e];
      SerializeAllSnoc(es[1..], e);
    }
  }

  /** Appending to the top list appends its tokens. */
  lemma {:induction false} UnparsePush(st: Stack, e: Expr)
    requires |st| >= 1
    ensures Unparse(Push(st, e)) == Unparse(st) + Serialize(e)
  {
    var n := |st|;
    var p := Push(st, e);
    assert |p| == n && p[n - 1] == st[n - 1] + [e];
    var top := SerializeAll(st[n - 1]);
    SerializeAllSnoc(st[n - 1], e);
    if n > 1 {
      UnparseTop(p, Unparse(st[..n - 1]), top + Serialize(e));
      UnparseTop(st, Unparse(st[..n - 1]), top);
    }
  }

  lemma UnparseTop(st: Stack, below: seq<string>, top: seq<string>)
    requires |st| > 1 && Unparse(st[..|st| - 1]) == below && SerializeAll(st[|st| - 1]) == top
    ensures Unparse(st) == below + ["("] + top
  {
  }

  /** One successful step adds its token to what the stack was built from. */
  lemma {:induction false} StepUnparse(st: Stack, tok: string)
    requires |st| >= 1 && Step(st, tok).Success?
    ensures Unparse(Step(st, tok).value) == Unparse(st) + [tok]
  {
    var n := |st|;
    if tok == "(" {
      var p := st + [[]];
      assert p[..n] == st;
      assert SerializeAll(p[n]) == [];
    } else if tok == ")" {
      var below := st[..n - 1];
      assert Step(st, tok).value == Push(below, Tup(st[n - 1]));
      UnparsePush(below, Tup(st[n - 1]));
      assert st[..n - 1] == below;
    } else {
      assert Step(st, tok).value == Push(st, Atom(tok));
      UnparsePush(st, Atom(tok));
    }
  }

  /** The loop keeps the stack in step with the tokens read so far. */
  lemma {:induction false} FoldUnparse(st: Stack, toks: seq<string>)
    requires |st| >= 1 && Fold(st, toks).Success?
    ensures Unparse(Fold(st, toks).value) == Unparse(st) + toks
    decreases |toks|
  {
    if toks == [] {
      assert Unparse(st) + toks == Unparse(st);
    } else {
      var st' := Step(st, toks[0]).value;
      StepUnparse(st, toks[0]);
      FoldUnparse(st', toks[1..]);
      assert [toks[0]] + toks[1..] == toks;
    }
  }

  /** The first element of the outer list is written out first. */
  lemma {:induction false} FirstOfOuter(st: Stack)
    requires |st| >= 1 && st[0] != []
    ensures Serialize(st[0][0]) <= Unparse(st)
    decreases |st|
  {
    assert Serialize(st[0][0]) <= SerializeAll(st[0]);
    if |st| > 1 {
      FirstOfOuter(st[..|st| - 1]);
    }
  }

  /** The top-of-stack list with `e` appended. */
  function Push(st: Stack, e: Expr): Stack
    requires |st| >= 1
  {
    st[..|st| - 1] + [st[|st| - 1] + [e]]
  }

  predicate GoodTokens(ts: seq<string>) {
    forall i :: 0 <= i < |ts| ==> ts[i] != [] && TokenOk(ts[i])
  }

  lemma {:induction false} SerializeGood(e: Expr)
    requires WellFormed(e)
    ensures GoodTokens(Serialize(e))
    decreases Size(e), 0
  {
    match e
    case Atom(a) =>
    case Tup(es) => SerializeAllGood(es);
  }

  lemma {:induction false} SerializeAllGood(es: seq<Expr>)
    requires AllWellFormed(es)
    ensures GoodTokens(SerializeAll(es))
    decreases SizeAll(es), 1
  {
    if es != [] {
      SerializeGood(es[0]);
      SerializeAllGood(es[1..]);
    }
  }

  /** Folding the tokens of `e` appends `e` to the top list. */
  lemma {:induction false} FoldSerialize(st: Stack, e: Expr, rest: seq<string>)
    requires |st| >= 1 && WellFormed(e)
    ensures Fold(st, Serialize(e) + rest) == Fold(Push(st, e), rest)
    decreases Size(e), 0
  {
    var n := |st|;
    match e
    case Atom(a) =>
      assert a != "(" && a != ")" by { assert !IsParen(a[0]); }
      var toks := [a] + rest;
      assert toks[0] == a && toks[1..] == rest;
    case Tup(es) =>
      var inner := SerializeAll(es) + ([")"] + rest);
      assert Serialize(e) + rest == ["("] + inner;
      FoldOpen(st, inner);
      var st1 := st + [[]];
      FoldSerializeAll(st1, es, [")"] + rest);
      assert st1[..|st1| - 1] == st;
      assert st1[|st1| - 1] + es == es;
      FoldClose(st, es, rest);
  }

  lemma FoldOpen(st: Stack, xs: seq<string>)
    requires |st| >= 1
    ensures Fold(st, ["("] + xs) == Fold(st + [[]], xs)
  {
    assert (["("] + xs)[1..] == xs;
  }

  lemma FoldClose(st: Stack, es: seq<Expr>, rest: seq<string>)
    requires |st| >= 1
    ensures Fold(st + [es], [")"] + rest) == Fold(Push(st, Tup(es)), rest)
  {
    var n := |st|;
    var st2 := st + [es];
    assert st2[..n - 1] == st[..n - 1];
    assert st2[n - 1] == st[n - 1];
    assert st2[n] == es;
    assert Step(st2, ")") == Success(Push(st, Tup(es)));
    assert ([")"] + rest)[1..] == rest;
  }

  /** Folding the tokens of several expressions appends them all to the top list. */
  lemma {:induction false} FoldSerializeAll(st: Stack, es: seq<Expr>, rest: seq<string>)
    requires |st| >= 1 && AllWellFormed(es)
    ensures Fold(st, SerializeAll(es) + rest) == Fold(st[..|st| - 1] + [st[|st| - 1] + es], rest)
    decreases SizeAll(es), 1
  {
    var n := |st|;
    if es == [] {
      assert SerializeAll(es) + rest == rest;
      assert st[n - 1] + es == st[n - 1];
      assert st[..n - 1] + [st[n - 1]] == st;
    } else {
      ConcatAssoc(Serialize(es[0]), SerializeAll(es[1..]), rest);
      FoldSerialize(st, es[0], SerializeAll(es[1..]) + rest);
      var st1 := Push(st, es[0]);
      FoldSerializeAll(st1, es[1..], rest);
      assert st1[..n - 1] == st[..n - 1];
      assert st1[n - 1] + es[1..] == st[n - 1] + es;
    }
  }

  lemma {:induction false} FieldsPadToken(t: string)
    requires t != [] && TokenOk(t)
    ensures Fields(Pad(t)) == [t]
  {
    if t == "(" || t == ")" {
      assert t == [t[0]];
      PadChar(t[0]);
      var p := Pad(t);
      assert p[0] == ' ' && p[1..] == t + " ";
      assert SkipWs(p) == t + " ";
      FieldsSkipWs(p);
      FieldsAppend(t, " ");
      FieldsOfWord(t);
      FieldsAllWs(" ");
    } else {
      PadPlain(t);
      FieldsOfWord(t);
    }
  }

  /** Reading back tokens joined by single spaces gives the same tokens. */
  lemma {:induction false} TokenizeJoin(ts: seq<string>)
    requires |ts| >= 1 && GoodTokens(ts)
    ensures Tokenize(Join(ts, ' ')) == ts
  {
    FieldsPadJoin(ts);
    TokenizeIsFields(Join(ts, ' '));
  }

  lemma {:induction false} FieldsPadJoin(ts: seq<string>)
    requires |ts| >= 1 && GoodTokens(ts)
    ensures Fields(Pad(Join(ts, ' '))) == ts
    decreases |ts|
  {
    FieldsPadToken(ts[0]);
    if |ts| > 1 {
      var j := Join(ts[1..], ' ');
      ConcatAssoc(ts[0], [' '], j);
      PadAppend(ts[0], [' '] + j);
      PadAppend([' '], j);
      PadChar(' ');
      FieldsAppend(Pad(ts[0]), " " + Pad(j));
      assert SkipWs(" " + Pad(j)) == SkipWs(Pad(j));
      FieldsSkipWs(" " + Pad(j));
      FieldsSkipWs(Pad(j));
      FieldsPadJoin(ts[1..]);
      assert [ts[0]] + ts[1..] == ts;
    }
  }

  /** `parse_lisp` returns only the first top-level expression; the ones
      after it are read and dropped. */
  lemma {:induction false} FirstOnly(e: Expr, es: seq<Expr>)
    requires WellFormed(e) && AllWellFormed(es)
    ensures ParseLisp(Join(Serialize(e) + SerializeAll(es), ' ')) == Success(e)
  {
    var all := [e] + es;
    assert all[0] == e && all[1..] == es;
    assert AllWellFormed(all);
    SerializeAllGood(all);
    var toks := SerializeAll(all);
    assert toks == Serialize(e) + SerializeAll(es);
    TokenizeJoin(toks);
    FoldSerializeAll([[]], all, []);
    assert toks + [] == toks;
    var outer: Stack := [[]];
    assert outer[..0] == [];
    assert outer[0] + all == all;
    assert outer[..0] + [outer[0] + all] == [all];
    assert Fold([[]], toks) == Success([all]);
  }

  /** Reading the text of an expression gives the expression back. */
  lemma RoundTrip(e: Expr)
    requires WellFormed(e)
    ensures ParseLisp(Render(e)) == Success(e)
  {
    FirstOnly(e, []);
    assert Serialize(e) + SerializeAll([]) == Serialize(e);
  }

  /** The expression `( A ( B C ) )` reads as the pair of A and the tuple
      (B, C). */
  lemma Example()
    ensures ParseLisp("( A ( B C ) )") == Success(Tup([Atom("A"), Tup([Atom("B"), Atom("C")])]))
  {
    var e := Tup([Atom("A"), Tup([Atom("B"), Atom("C")])]);
    SerializeExample();
    JoinExample();
    RoundTrip(e);
  }

  lemma SerializeExample()
    ensures var e := Tup([Atom("A"), Tup([Atom("B"), Atom("C")])]);
            && WellFormed(e)
            && Serialize(e) == ["(", "A", "(", "B", "C", ")", ")"]
  {
    var bc := Tup([Atom("B"), Atom("C")]);
    var e := Tup([Atom("A"), bc]);
    SerializeInner();
    assert Clean("A");
    assert WellFormed(e);
    var items := [Atom("A"), bc];
    assert items[1..] == [bc];
    assert SerializeAll(items[1..]) == ["(", "B", "C", ")"] + SerializeAll([]);
    assert Serialize(Atom("A")) == ["A"];
    assert SerializeAll(items) == ["A", "(", "B", "C", ")"];
  }

  /** The inner tuple of `Example`. */
  lemma SerializeInner()
    ensures WellFormed(Tup([Atom("B"), Atom("C")]))
    ensures Serialize(Tup([Atom("B"), Atom("C")])) == ["(", "B", "C", ")"]
  {
    assert Clean("B") && Clean("C");
    assert SerializeAll([Atom("B"), Atom("C")]) == ["B", "C"];
  }

  lemma JoinExample()
    ensures Join(["(", "A", "(", "B", "C", ")", ")"], ' ') == "( A ( B C ) )"
  {
    JoinExampleTail();
    JoinStep("A", ["(", "B", "C", ")", ")"], ' ');
    JoinStep("(", ["A", "(", "B", "C", ")", ")"], ' ');
  }

  lemma JoinExampleTail()
    ensures Join(["(", "B", "C", ")", ")"], ' ') == "( B C ) )"
  {
    JoinStep(")", [")"], ' ');
    JoinStep("C", [")", ")"], ' ');
    JoinStep("B", ["C", ")", ")"], ' ');
    JoinStep("(", ["B", "C", ")", ")"], ' ');
  }

  /** Joining a word in front of at least one more. */
  lemma JoinStep(w: string, rest: seq<string>, sep: char)
    requires |rest| >= 1
    ensures Join([w] + rest, sep) == w + [sep] + Join(rest, sep)
  {
    assert ([w] + rest)[1..] == rest;
  }

  // ---------------------------------------------------------------------
  // Failures

  lemma PrefixBalance(toks: seq<string>, k: nat)
    requires 1 <= k <= |toks|
    ensures Balance(toks[..k]) == Delta(toks[0]) + Balance(toks[1..][..k - 1])
  {
    assert toks[..k][1..] == toks[1..][..k - 1];
  }

  /** The fold fails exactly when some prefix closes more lists than are open:
      `)` on the outer list. */
  lemma {:induction false} FoldFails(st: Stack, toks: seq<string>)
    requires |st| >= 1
    ensures Fold(st, toks).Failure? <==>
            exists k :: 1 <= k <= |toks| && |st| - 1 + Balance(toks[..k]) < 0
    decreases |toks|
  {
    if toks != [] {
      var t := toks[0];
      PrefixBalance(toks, 1);
      assert toks[1..][..0] == [];
      match Step(st, t)
      case Failure(_) =>
        assert |st| - 1 + Balance(toks[..1]) < 0;
      case Success(st') =>
        FoldFails(st', toks[1..]);
        if Fold(st, toks).Failure? {
          var k' :| 1 <= k' <= |toks| - 1 && |st'| - 1 + Balance(toks[1..][..k']) < 0;
          PrefixBalance(toks, k' + 1);
          assert |st| - 1 + Balance(toks[..k' + 1]) < 0;
        } else {
          forall k | 1 <= k <= |toks|
            ensures |st| - 1 + Balance(toks[..k]) >= 0
          {
            PrefixBalance(toks, k);
            if k > 1 {
              assert |st'| - 1 + Balance(toks[1..][..k - 1]) >= 0;
            }
          }
        }
    }
  }

  /** A `)` with no `(` to match fails: `parse_lisp` raises on it. */
  lemma UnmatchedCloseFails(toks: seq<string>, k: nat)
    requires 1 <= k <= |toks| && Balance(toks[..k]) < 0
    ensures ParseTokens(toks) == Failure(UnmatchedClose)
  {
    FoldFails([[]], toks);
    FoldError([[]], toks);
  }

  /** The only error the fold itself can produce is an unmatched `)`. */
  lemma {:induction false} FoldError(st: Stack, toks: seq<string>)
    requires |st| >= 1
    ensures Fold(st, toks).Failure? ==> Fold(st, toks).error == UnmatchedClose
    decreases |toks|
  {
    if toks != [] {
      match Step(st, toks[0])
      case Failure(_) =>
      case Success(st') => FoldError(st', toks[1..]);
    }
  }

  /** While no prefix closes below the second list, the outer list is untouched. */
  lemma {:induction false} FoldKeepsOuter(st: Stack, toks: seq<string>)
    requires |st| >= 2
    requires forall k :: 1 <= k <= |toks| ==> |st| - 2 + Balance(toks[..k]) >= 0
    ensures Fold(st, toks).Success?
    ensures |Fold(st, toks).value| >= 2 && Fold(st, toks).value[0] == st[0]
    decreases |toks|
  {
    if toks != [] {
      var t := toks[0];
      PrefixBalance(toks, 1);
      assert toks[1..][..0] == [];
      assert |st| - 2 + Delta(t) >= 0;
      var st' := Step(st, t).value;
      assert st'[0] == st[0];
      forall k | 1 <= k <= |toks| - 1
        ensures |st'| - 2 + Balance(toks[1..][..k]) >= 0
      {
        PrefixBalance(toks, k + 1);
      }
      FoldKeepsOuter(st', toks[1..]);
    }
  }

  /** A leading `(` that is never closed leaves the outer list empty, so
      `stack[0][0]` fails, whatever follows it. */
  lemma UnclosedOpenFails(toks: seq<string>)
    requires forall k :: 1 <= k <= |toks| ==> Balance(toks[..k]) >= 0
    ensures ParseTokens(["("] + toks) == Failure(EmptyOuterList)
  {
    var all := ["("] + toks;
    assert all[0] == "(" && all[1..] == toks;
    var outer: Stack := [[]];
    var two: Stack := [[], []];
    assert outer + [[]] == two;
    assert Step(outer, "(") == Success(two);
    assert Fold(outer, all) == Fold(two, toks);
    FoldKeepsOuter(two, toks);
  }

  /** A `(` left open after a complete first expression is not an error:
      `A ( B` reads as `A`. */
  lemma TrailingOpenIgnored()
    ensures ParseTokens(["A", "(", "B"]) == Success(Atom("A"))
  {
    var toks := ["A", "(", "B"];
    assert toks[1..] == ["(", "B"];
    assert toks[1..][1..] == ["B"];
    assert toks[1..][1..][1..] == [];
  }

  /** Empty or whitespace-only text reads as the empty atom: splitting the
      empty string on a space yields one empty token. */
  lemma BlankIsEmptyAtom(text: string)
    requires AllWs(text)
    ensures ParseLisp(text) == Success(Atom(""))
  {
    PadPlain(text);
    FieldsAllWs(text);
    TokenizeIsFields(text);
    assert Tokenize(text) == [""];
    assert [""][1..] == [];
  }

  /** Surrounding whitespace does not change what `parse_lisp` reads, so the
      `.strip()` its callers apply first is harmless. */
  lemma ParseLispStrip(s: string)
    ensures ParseLisp(Strip(s)) == ParseLisp(s)
  {
    PadStripFields(s);
    TokenizeIsFields(s);
    TokenizeIsFields(Strip(s));
  }

  /** Padding the parentheses of a stripped text leaves the same fields. */
  lemma PadStripFields(s: string)
    ensures Fields(Pad(Strip(s))) == Fields(Pad(s))
  {
    var t := SkipWs(s);
    SkipWsSpec(s);
    var pre := s[..|s| - |t|];
    assert s == pre + t;
    var m := StripEnd(t);
    StripEndSpec(t);
    var post := t[|m|..];
    assert t == m + post;
    assert Strip(s) == m;
    PadAround(pre, m, post);
    FieldsDropTrailing(Pad(m), post);
    FieldsDropLeading(pre, Pad(m) + post);
  }

  /** Padding leaves surrounding whitespace as it is. */
  lemma PadAround(pre: string, m: string, post: string)
    requires AllWs(pre) && AllWs(post)
    ensures Pad(pre + (m + post)) == pre + (Pad(m) + post)
  {
    PadPlain(pre);
    PadPlain(post);
    PadAppend(pre, m + post);
    PadAppend(m, post);
  }

  lemma FieldsDropLeading(pre: string, x: string)
    requires AllWs(pre)
    ensures Fields(pre + x) == Fields(x)
  {
    SkipWsAllWs(pre);
    SkipWsAppend(pre, x);
    FieldsSkipWs(pre + x);
    FieldsSkipWs(x);
  }

  lemma FieldsDropTrailing(y: string, post: string)
    requires AllWs(post)
    ensures Fields(y + post) == Fields(y)
  {
    FieldsAppend(y, post);
    FieldsAllWs(post);
    assert Fields(y) + [] == Fields(y);
  }
}

=== FILE: Reader.dfy ===
/** `read_file` (gigaword/__init__.py:80-144) after decompression: the
    header line is dropped, the remaining lines are gathered until one
    strips to `</DOC>`, and each gathered block is wrapped in `<xml>` and
    read as one document. The XML parser is a parameter. */
module Reader {
  import opened Wrappers
  import opened Strings
  import opened Xml
  import opened Documents

  predicate IsTerminator(line: string) {
    Strip(line) == "</DOC>"
  }

  predicate NoTerminator(lines: seq<string>) {
    forall i :: 0 <= i < |lines| ==> !IsTerminator(lines[i])
  }

  /** A block: lines ending at the first terminator. */
  predicate IsBlock(b: seq<string>) {
    |b| >= 1 && IsTerminator(b[|b| - 1]) && NoTerminator(b[..|b| - 1])
  }

  function Concat(bs: seq<seq<string>>): seq<string> {
    if bs == [] then [] else bs[0] + Concat(bs[1..])
  }

  function CountTerminators(lines: seq<string>): nat {
    if lines == [] then 0 else (if IsTerminator(lines[0]) then 1 else 0) + CountTerminators(lines[1..])
  }

  /** The loop over the lines after the header, with `buf` the lines gathered
      since the last terminator. */
  function Scan(rest: seq<string>, buf: seq<string>): seq<seq<string>>
    decreases |rest|
  {
    if rest == [] then []
    else if IsTerminator(rest[0]) then [buf + [rest[0]]] + Scan(rest[1..], [])
    else Scan(rest[1..], buf + [rest[0]])
  }

  /** The blocks `read_file` turns into documents, in file order. The first
      line is never looked at; every block ends at the first terminator after
      the previous one; the lines after the last terminator are dropped. */
  function Blocks(lines: seq<string>): (r: seq<seq<string>>)
    ensures forall i :: 0 <= i < |r| ==> IsBlock(r[i])
    ensures lines == [] ==> r == []
    ensures lines != [] ==>
              && Concat(r) + Trailing(lines) == lines[1..]
              && NoTerminator(Trailing(lines))
              && |r| == CountTerminators(lines[1..])
  {
    if lines == [] then []
    else
      ScanSpec(lines[1..], []);
      assert [] + lines[1..] == lines[1..];
      Scan(lines[1..], [])
  }

  /** The lines after the last terminator: what is left in the buffer when
      the loop ends. */
  function Trailing(lines: seq<string>): seq<string> {
    if lines == [] then [] else Pending(lines[1..], [])
  }

  function Pending(rest: seq<string>, buf: seq<string>): seq<string>
    decreases |rest|
  {
    if rest == [] then buf
    else if IsTerminator(rest[0]) then Pending(rest[1..], [])
    else Pending(rest[1..], buf + [rest[0]])
  }

  lemma ScanSpec(rest: seq<string>, buf: seq<string>)
    requires NoTerminator(buf)
    ensures var r := Scan(rest, buf);
            && (forall i :: 0 <= i < |r| ==> IsBlock(r[i]))
            && Concat(r) + Pending(rest, buf) == buf + rest
            && NoTerminator(Pending(rest, buf))
            && |r| == CountTerminators(rest)
  {
    ScanBlocks(rest, buf);
    ScanCover(rest, buf);
    PendingClean(rest, buf);
    ScanCount(rest, buf);
  }

  lemma {:induction false} ScanBlocks(rest: seq<string>, buf: seq<string>)
    requires NoTerminator(buf)
    ensures forall i :: 0 <= i < |Scan(rest, buf)| ==> IsBlock(Scan(rest, buf)[i])
    decreases |rest|
  {
    if rest != [] {
      if IsTerminator(rest[0]) {
        var b := buf + [rest[0]];
        assert b[..|b| - 1] == buf;
        ScanBlocks(rest[1..], []);
      } else {
        var b := buf + [rest[0]];
        assert NoTerminator(b);
        ScanBlocks(rest[1..], b);
      }
    }
  }

  lemma {:induction false} ScanCount(rest: seq<string>, buf: seq<string>)
    ensures |Scan(rest, buf)| == CountTerminators(rest)
    decreases |rest|
  {
    if rest != [] {
      if IsTerminator(rest[0]) {
        ScanCount(rest[1..], []);
      } else {
        ScanCount(rest[1..], buf + [rest[0]]);
      }
    }
  }

  lemma {:induction false} ScanCover(rest: seq<string>, buf: seq<string>)
    ensures Concat(Scan(rest, buf)) + Pending(rest, buf) == buf + rest
    decreases |rest|
  {
    if rest == [] {
      assert Concat(Scan(rest, buf)) == [];
    } else if IsTerminator(rest[0]) {
      ScanCover(rest[1..], []);
      CoverAtTerminator(rest, buf);
    } else {
      ScanCover(rest[1..], buf + [rest[0]]);
      assert buf + [rest[0]] + rest[1..] == buf + rest;
    }
  }

  /** The step of `ScanCover` at a terminator. */
  lemma CoverAtTerminator(rest: seq<string>, buf: seq<string>)
    requires rest != [] && IsTerminator(rest[0])
    requires Concat(Scan(rest[1..], [])) + Pending(rest[1..], []) == rest[1..]
    ensures Concat(Scan(rest, buf)) + Pending(rest, buf) == buf + rest
  {
    var b, t := buf + [rest[0]], Scan(rest[1..], []);
    var c, p := Concat(t), Pending(rest[1..], []);
    assert Scan(rest, buf) == [b] + t;
    assert Pending(rest, buf) == p;
    ConcatCons(b, t);
    ConcatAssoc(b, c, p);
    HeadTail(buf, rest);
  }

  lemma HeadTail(buf: seq<string>, rest: seq<string>)
    requires rest != []
    ensures (buf + [rest[0]]) + rest[1..] == buf + rest
  {
    assert [rest[0]] + rest[1..] == rest;
  }

  lemma {:induction false} PendingClean(rest: seq<string>, buf: seq<string>)
    requires NoTerminator(buf)
    ensures NoTerminator(Pending(rest, buf))
    decreases |rest|
  {
    if rest != [] {
      if IsTerminator(rest[0]) {
        PendingClean(rest[1..], []);
      } else {
        var b := buf + [rest[0]];
        assert NoTerminator(b);
        PendingClean(rest[1..], b);
      }
    }
  }

  /** A block at the front is emitted whole and the scan starts afresh. */
  lemma {:induction false} ScanBlock(b: seq<string>, rest: seq<string>, buf: seq<string>)
    requires IsBlock(b)
    ensures Scan(b + rest, buf) == [buf + b] + Scan(rest, [])
    decreases |b|
  {
    assert (b + rest)[0] == b[0];
    assert (b + rest)[1..] == b[1..] + rest;
    if |b| == 1 {
      assert b == [b[0]];
      assert b[1..] + rest == rest;
      assert IsTerminator(b[0]);
    } else {
      assert !IsTerminator(b[..|b| - 1][0]);
      assert b[1..][..|b[1..]| - 1] == b[..|b| - 1][1..];
      ScanBlock(b[1..], rest, buf + [b[0]]);
      assert buf + [b[0]] + b[1..] == buf + b;
    }
  }

  lemma ConcatCons(b: seq<string>, t: seq<seq<string>>)
    ensures Concat([b] + t) == b + Concat(t)
  {
    assert ([b] + t)[1..] == t;
  }

  /** Lines without a terminator produce no block. */
  lemma {:induction false} ScanNoTerminator(rest: seq<string>, buf: seq<string>)
    requires NoTerminator(rest)
    ensures Scan(rest, buf) == []
    decreases |rest|
  {
    if rest != [] {
      ScanNoTerminator(rest[1..], buf + [rest[0]]);
    }
  }

  /** The split is the only one with the properties `Blocks` promises: any
      sequence of blocks that, followed by terminator-free lines, makes up
      the lines after the header, is `Blocks`. */
  lemma {:induction false} BlocksUnique(lines: seq<string>, bs: seq<seq<string>>, tail: seq<string>)
    requires lines != []
    requires forall i :: 0 <= i < |bs| ==> IsBlock(bs[i])
    requires Concat(bs) + tail == lines[1..] && NoTerminator(tail)
    ensures Blocks(lines) == bs
  {
    ScanUnique(lines[1..], bs, tail);
  }

  lemma {:induction false} ScanUnique(xs: seq<string>, bs: seq<seq<string>>, tail: seq<string>)
    requires forall i :: 0 <= i < |bs| ==> IsBlock(bs[i])
    requires Concat(bs) + tail == xs && NoTerminator(tail)
    ensures Scan(xs, []) == bs
    decreases |bs|
  {
    if bs == [] {
      assert xs == tail;
      ScanNoTerminator(xs, []);
    } else {
      var rest := Concat(bs[1..]) + tail;
      assert xs == bs[0] + rest;
      ScanBlock(bs[0], rest, []);
      assert [] + bs[0] == bs[0];
      ScanUnique(rest, bs[1..], tail);
      assert bs == [bs[0]] + bs[1..];
    }
  }

  /** Lines after the last terminator never reach the parser. */
  lemma {:induction false} TrailingLinesIgnored(lines: seq<string>, tail: seq<string>)
    requires |lines| >= 1 && NoTerminator(tail)
    requires |lines| == 1 || IsTerminator(lines[|lines| - 1])
    ensures Blocks(lines + tail) == Blocks(lines)
  {
    var bs := Blocks(lines);
    var xs := lines[1..];
    var t := Trailing(lines);
    assert Concat(bs) + t == xs;
    // The last line is a terminator, which the trailing lines lack.
    assert t == [];
    assert Concat(bs) + [] == xs;
    assert (lines + tail)[1..] == xs + tail;
    BlocksUnique(lines + tail, bs, tail);
  }

  /** The same loop as `Blocks`, written as the source writes it: a buffer
      that grows line by line and is emitted and reset at each terminator. */
  method SplitDocuments(lines: seq<string>) returns (blocks: seq<seq<string>>)
    ensures blocks == Blocks(lines)
  {
    blocks := [];
    if lines == [] {
      return;
    }
    var buf: seq<string> := [];
    var i := 1;
    while i < |lines|
      invariant 1 <= i <= |lines|
      invariant blocks + Scan(lines[i..], buf) == Scan(lines[1..], [])
      decreases |lines| - i
    {
      var line := lines[i];
      assert lines[i..][1..] == lines[i + 1..];
      if IsTerminator(line) {
        blocks := blocks + [buf + [line]];
        buf := [];
      } else {
        buf := buf + [line];
      }
      i := i + 1;
    }
  }

  // ---------------------------------------------------------------------
  // Reading the blocks

  /** The XML parser: `etree.fromstringlist`, None when it rejects the text. */
  type XmlParser = seq<string> -> Option<Element>

  /** One block: wrapped in `<xml>` and `</xml>`, parsed, and its `DOC` child
      read as a document. */
  function ParseBlock(block: seq<string>, opts: Options, parse: XmlParser): (r: Result<Document, Error>)
    ensures parse(["<xml>"] + block + ["</xml>"]).None? ==> r == Failure(MalformedXml)
    ensures parse(["<xml>"] + block + ["</xml>"]).Some? ==>
              var root := parse(["<xml>"] + block + ["</xml>"]).value;
              && (Find(root, "DOC").None? ==> r == Failure(MissingChild("DOC")))
              && (Find(root, "DOC").Some? ==> r == ParseDocument(Find(root, "DOC").value, opts))
  {
    match parse(["<xml>"] + block + ["</xml>"])
    case None => Failure(MalformedXml)
    case Some(root) =>
      var doc :- Child(root, "DOC");
      ParseDocument(doc, opts)
  }

  /** What the generator yields: the documents up to the first block that
      raises, and that error if there is one. */
  datatype Stream = Stream(docs: seq<Document>, failure: Option<Error>)

  /** The documents read from the blocks one after the other, stopping at
      the first block that fails to read. */
  function ParseBlocks(blocks: seq<seq<string>>, opts: Options, parse: XmlParser): (r: Stream)
    ensures |r.docs| <= |blocks|
    ensures forall i :: 0 <= i < |r.docs| ==> ParseBlock(blocks[i], opts, parse) == Success(r.docs[i])
    ensures r.failure.None? ==> |r.docs| == |blocks|
    ensures r.failure.Some? ==>
              |r.docs| < |blocks| && ParseBlock(blocks[|r.docs|], opts, parse) == Failure(r.failure.value)
  {
    ReadEach(blocks, b => ParseBlock(b, opts, parse))
  }

  /** `ParseBlocks` for any reader of one block. */
  function ReadEach(blocks: seq<seq<string>>, read: seq<string> -> Result<Document, Error>): (r: Stream)
    ensures |r.docs| <= |blocks|
    ensures forall i :: 0 <= i < |r.docs| ==> read(blocks[i]) == Success(r.docs[i])
    ensures r.failure.None? ==> |r.docs| == |blocks|
    ensures r.failure.Some? ==> |r.docs| < |blocks| && read(blocks[|r.docs|]) == Failure(r.failure.value)
  {
    if blocks == [] then Stream([], None)
    else match read(blocks[0])
      case Failure(e) => Stream([], Some(e))
      case Success(d) =>
        var rest := ReadEach(blocks[1..], read);
        var r := Stream([d] + rest.docs, rest.failure);
        assert forall i :: 1 <= i <= |rest.docs| ==> r.docs[i] == rest.docs[i - 1] && blocks[i] == blocks[1..][i - 1];
        r
  }

  /** `read_file` on the lines of a decompressed file. */
  function ReadFile(lines: seq<string>, opts: Options, parse: XmlParser): (r: Stream)
    ensures |r.docs| <= CountTerminators(if lines == [] then [] else lines[1..])
  {
    ParseBlocks(Blocks(lines), opts, parse)
  }

  /** Trailing lines after the last terminator change nothing that is read. */
  lemma ReadFileIgnoresTrailing(lines: seq<string>, tail: seq<string>, opts: Options, parse: XmlParser)
    requires |lines| >= 1 && NoTerminator(tail)
    requires |lines| == 1 || IsTerminator(lines[|lines| - 1])
    ensures ReadFile(lines + tail, opts, parse) == ReadFile(lines, opts, parse)
  {
    TrailingLinesIgnored(lines, tail);
  }

  /** A file whose every block reads yields one document per terminator. */
  lemma OneDocumentPerTerminator(lines: seq<string>, opts: Options, parse: XmlParser)
    requires lines != []
    ensures ReadFile(lines, opts, parse).failure.None? ==>
              |ReadFile(lines, opts, parse).docs| == CountTerminators(lines[1..])
  {
  }

  // ---------------------------------------------------------------------
  // The loop as written (gigaword/__init__.py:130-131)

  /** One block read by the document loop as written. */
  function ParseBlockAsWritten(block: seq<string>, opts: Options, parse: XmlParser): (r: Result<Document, Error>)
    ensures r.Success? ==> r.value.text.None? && ParseBlock(block, opts, parse) == r
  {
    match parse(["<xml>"] + block + ["</xml>"])
    case None => Failure(MalformedXml)
    case Some(root) =>
      var doc :- Child(root, "DOC");
      var r := ParseDocumentAsWritten(doc, opts);
      if r.Success? then AsWrittenWithoutText(doc, opts); r else r
  }

  /** `read_file` as written: no document it yields has text, and what it
      yields is a prefix of what the corrected loop yields. */
  function ReadFileAsWritten(lines: seq<string>, opts: Options, parse: XmlParser): (r: Stream)
    ensures forall i :: 0 <= i < |r.docs| ==> r.docs[i].text.None?
    ensures r.docs <= ReadFile(lines, opts, parse).docs
  {
    var read := b => ParseBlockAsWritten(b, opts, parse);
    var r := ReadEach(Blocks(lines), read);
    ReadEachPrefix(Blocks(lines), read, b => ParseBlock(b, opts, parse));
    r
  }

  /** A reader that agrees with another wherever it succeeds yields a prefix
      of the other's documents. */
  lemma {:induction false} ReadEachPrefix(blocks: seq<seq<string>>, read: seq<string> -> Result<Document, Error>,
                                          other: seq<string> -> Result<Document, Error>)
    requires forall i :: 0 <= i < |blocks| && read(blocks[i]).Success? ==> other(blocks[i]) == read(blocks[i])
    ensures ReadEach(blocks, read).docs <= ReadEach(blocks, other).docs
    decreases |blocks|
  {
    if blocks != [] && read(blocks[0]).Success? {
      assert forall i :: 0 <= i < |blocks[1..]| ==> blocks[1..][i] == blocks[i + 1];
      ReadEachPrefix(blocks[1..], read, other);
    }
  }

  /** With the text switch off the loop as written reads every file as
      intended. */
  lemma {:induction false} AsWrittenWithoutTextSwitch(lines: seq<string>, opts: Options, parse: XmlParser)
    requires !opts.text
    ensures ReadFileAsWritten(lines, opts, parse) == ReadFile(lines, opts, parse)
  {
    var read := b => ParseBlockAsWritten(b, opts, parse);
    var other := b => ParseBlock(b, opts, parse);
    forall b ensures read(b) == other(b) {
      match parse(["<xml>"] + b + ["</xml>"])
      case None =>
      case Some(root) =>
        if Find(root, "DOC").Some? {
          AsWrittenWithoutText(Find(root, "DOC").value, opts);
        }
    }
    ReadEachSame(Blocks(lines), read, other);
  }

  lemma {:induction false} ReadEachSame(blocks: seq<seq<string>>, read: seq<string> -> Result<Document, Error>,
                                        other: seq<string> -> Result<Document, Error>)
    requires forall b :: read(b) == other(b)
    ensures ReadEach(blocks, read) == ReadEach(blocks, other)
    decreases |blocks|
  {
    if blocks != [] {
      ReadEachSame(blocks[1..], read, other);
    }
  }
}

=== FILE: Strings.dfy ===
/** The Python string operations the reader relies on: `str.isspace`,
    `str.strip()`, `str.split(sep)`, `str.split()` and
    `re.sub('\\s+', ' ', s)`, over `string` as a sequence of code points. */
module Strings {

  /** Python's `str.isspace`, which both `str.strip()` and the regular
      expression class `\s` use on text. */
  predicate IsWs(c: char) {
    || c == ' ' || c == '\t' || c == '\n' || c == '\r'
    || c == '\U{0b}' || c == '\U{0c}'
    || ('\U{1c}' <= c <= '\U{1f}')
    || c == '\U{85}' || c == '\U{a0}' || c == '\U{1680}'
    || ('\U{2000}' <= c <= '\U{200a}')
    || c == '\U{2028}' || c == '\U{2029}' || c == '\U{202f}'
    || c == '\U{205f}' || c == '\U{3000}'
  }

  predicate NoWs(s: string) {
    forall i :: 0 <= i < |s| ==> !IsWs(s[i])
  }

  predicate AllWs(s: string) {
    forall i :: 0 <= i < |s| ==> IsWs(s[i])
  }

  /** `s.lstrip()`. */
  function SkipWs(s: string): (r: string)
    ensures |r| <= |s|
    ensures r == [] || !IsWs(r[0])
  {
    if s != [] && IsWs(s[0]) then SkipWs(s[1..]) else s
  }

  /** `s.rstrip()`. */
  function StripEnd(s: string): (r: string)
    ensures |r| <= |s|
    ensures r == [] || !IsWs(r[|r| - 1])
  {
    if s != [] && IsWs(s[|s| - 1]) then StripEnd(s[..|s| - 1]) else s
  }

  /** `s.strip()`: what is left neither starts nor ends with whitespace. */
  function Strip(s: string): (r: string)
    ensures |r| <= |s|
    ensures r == [] || (!IsWs(r[0]) && !IsWs(r[|r| - 1]))
  {
    var t := SkipWs(s);
    StripEndSpec(t);
    StripEnd(t)
  }

  /** `sep.join(parts)`. */
  function Join(parts: seq<string>, sep: char): string
    requires |parts| >= 1
  {
    if |parts| == 1 then parts[0] else parts[0] + [sep] + Join(parts[1..], sep)
  }

  /** `s.split(sep)` for a one-character separator: never empty, the pieces
      contain no separator, and joining them back gives `s`. */
  function Split(s: string, sep: char): (r: seq<string>)
    ensures |r| >= 1
    ensures forall i :: 0 <= i < |r| ==> sep !in r[i]
    ensures Join(r, sep) == s
  {
    if s == [] then [[]]
    else
      var rest := Split(s[1..], sep);
      if s[0] == sep then [[]] + rest
      else [[s[0]] + rest[0]] + rest[1..]
  }

  /** The longest whitespace-free prefix of `s`. */
  function Word(s: string): (w: string)
    ensures |w| <= |s|
    ensures s != [] && !IsWs(s[0]) ==> w != []
  {
    if s == [] || IsWs(s[0]) then [] else [s[0]] + Word(s[1..])
  }

  /** `s.split()`: the maximal whitespace-free runs of `s`, in order. */
  function Fields(s: string): (r: seq<string>)
    decreases |s|
  {
    var t := SkipWs(s);
    if t == [] then []
    else
      var w := Word(t);
      [w] + Fields(t[|w|..])
  }

  /** `re.sub('\\s+', ' ', s)`: each maximal run of whitespace becomes one space. */
  function Collapse(s: string): (r: string)
    ensures r == [] <==> s == []
    ensures s != [] ==> r[0] == if IsWs(s[0]) then ' ' else s[0]
    ensures forall i :: 0 <= i < |r| && IsWs(r[i]) ==> r[i] == ' '
    ensures forall i :: 0 <= i < |r| - 1 ==> !(IsWs(r[i]) && IsWs(r[i + 1]))
    decreases |s|
  {
    if s == [] then []
    else if IsWs(s[0]) then
      var u := SkipWs(s[1..]);
      var c := Collapse(u);
      var r := " " + c;
      assert forall i :: 0 < i < |r| ==> r[i] == c[i - 1];
      r
    else
      var c := Collapse(s[1..]);
      var r := [s[0]] + c;
      assert forall i :: 0 < i < |r| ==> r[i] == c[i - 1];
      r
  }

  // ---------------------------------------------------------------------
  // What the pieces compute

  lemma ConcatAssoc<T>(x: seq<T>, y: seq<T>, z: seq<T>)
    ensures x + (y + z) == (x + y) + z
  {
  }

  /** `lstrip` removes exactly a leading run of whitespace. */
  lemma {:induction false} SkipWsSpec(s: string)
    ensures var r := SkipWs(s); r == s[|s| - |r|..] && AllWs(s[..|s| - |r|])
    decreases |s|
  {
    if s != [] && IsWs(s[0]) {
      SkipWsSpec(s[1..]);
      var r := SkipWs(s);
      assert s[1..][|s| - 1 - |r|..] == s[|s| - |r|..];
      assert s[..|s| - |r|] == [s[0]] + s[1..][..|s| - 1 - |r|];
    }
  }

  /** `rstrip` removes exactly a trailing run of whitespace. */
  lemma {:induction false} StripEndSpec(s: string)
    ensures var r := StripEnd(s); r == s[..|r|] && AllWs(s[|r|..])
    decreases |s|
  {
    if s != [] && IsWs(s[|s| - 1]) {
      StripEndSpec(s[..|s| - 1]);
      var r := StripEnd(s);
      assert s[..|s| - 1][..|r|] == s[..|r|];
      assert s[|r|..] == s[..|s| - 1][|r|..] + [s[|s| - 1]];
    }
  }

  /** `Word` is the maximal whitespace-free prefix. */
  lemma {:induction false} WordSpec(s: string)
    ensures var w := Word(s); w == s[..|w|] && NoWs(w) && (|w| == |s| || IsWs(s[|w|]))
    decreases |s|
  {
    if s != [] && !IsWs(s[0]) {
      WordSpec(s[1..]);
    }
  }

  lemma {:induction false} WordSplit(t: string)
    ensures var w := Word(t); t == w + t[|w|..] && NoWs(w) && (t[|w|..] == [] || IsWs(t[|w|..][0]))
  {
    WordSpec(t);
    var w := Word(t);
    assert t == t[..|w|] + t[|w|..];
    if |w| < |t| {
      assert t[|w|..][0] == t[|w|];
    }
  }

  /** Every field is a non-empty whitespace-free string. */
  lemma {:induction false} FieldsAreWords(s: string)
    ensures forall i :: 0 <= i < |Fields(s)| ==> Fields(s)[i] != [] && NoWs(Fields(s)[i])
    decreases |s|
  {
    var t := SkipWs(s);
    if t != [] {
      var w := Word(t);
      WordSpec(t);
      FieldsAreWords(t[|w|..]);
    }
  }

  lemma SkipWsAppend(a: string, b: string)
    ensures SkipWs(a) != [] ==> SkipWs(a + b) == SkipWs(a) + b
    ensures SkipWs(a) == [] ==> SkipWs(a + b) == SkipWs(b)
    decreases |a|
  {
    if a == [] {
      assert a + b == b;
    } else {
      assert (a + b)[0] == a[0];
      assert (a + b)[1..] == a[1..] + b;
      if IsWs(a[0]) { SkipWsAppend(a[1..], b); }
    }
  }

  lemma FieldsUnfold(s: string)
    requires SkipWs(s) != []
    ensures var t := SkipWs(s); Fields(s) == [Word(t)] + Fields(t[|Word(t)|..])
  {
  }

  lemma FieldsSkipWs(s: string)
    ensures Fields(SkipWs(s)) == Fields(s)
  {
    var t := SkipWs(s);
    assert SkipWs(t) == t;
  }

  lemma {:induction false} WordAppend(t: string, b: string)
    requires b == [] || IsWs(b[0])
    ensures Word(t + b) == Word(t)
    decreases |t|
  {
    if t == [] {
      assert t + b == b;
    } else {
      assert (t + b)[0] == t[0];
      assert (t + b)[1..] == t[1..] + b;
      WordAppend(t[1..], b);
    }
  }

  /** Fields of a concatenation split at whitespace are the fields of the parts. */
  lemma {:induction false} FieldsAppend(a: string, b: string)
    requires b == [] || IsWs(b[0])
    ensures Fields(a + b) == Fields(a) + Fields(b)
    decreases |a|
  {
    var t := SkipWs(a);
    SkipWsAppend(a, b);
    if t == [] {
      FieldsSkipWs(a + b);
      FieldsSkipWs(b);
      assert Fields(a + b) == Fields(b);
      assert Fields(a) == [];
      assert Fields(a) + Fields(b) == Fields(b);
    } else {
      var w := Word(t);
      var u := t[|w|..];
      WordAppend(t, b);
      var tb := SkipWs(a + b);
      assert tb == t + b;
      assert Word(tb) == w;
      assert tb[|w|..] == u + b;
      FieldsUnfold(a + b);
      assert Fields(a + b) == [w] + Fields(u + b);
      FieldsUnfold(a);
      assert Fields(a) == [w] + Fields(u);
      FieldsAppend(u, b);
      ConcatAssoc([w], Fields(u), Fields(b));
    }
  }

  lemma {:induction false} WordWhole(w: string)
    requires NoWs(w)
    ensures Word(w) == w
    decreases |w|
  {
    if w != [] { WordWhole(w[1..]); }
  }

  /** A non-empty whitespace-free string is a single field. */
  lemma {:induction false} FieldsOfWord(w: string)
    requires w != [] && NoWs(w)
    ensures Fields(w) == [w]
  {
    assert SkipWs(w) == w;
    WordWhole(w);
    assert w[|w|..] == [];
  }

  lemma {:induction false} SkipWsAllWs(s: string)
    requires AllWs(s)
    ensures SkipWs(s) == []
    decreases |s|
  {
    if s != [] { SkipWsAllWs(s[1..]); }
  }

  /** A string of whitespace has no field. */
  lemma {:induction false} FieldsAllWs(s: string)
    requires AllWs(s)
    ensures Fields(s) == []
  {
    SkipWsAllWs(s);
  }

  lemma {:induction false} CollapseWord(w: string, u: string)
    requires NoWs(w)
    ensures Collapse(w + u) == w + Collapse(u)
    decreases |w|
  {
    if w == [] {
      assert w + u == u;
    } else {
      assert (w + u)[0] == w[0];
      assert (w + u)[1..] == w[1..] + u;
      CollapseWord(w[1..], u);
      assert [w[0]] + w[1..] == w;
    }
  }

  lemma CollapseAllWs(u: string)
    requires AllWs(u)
    ensures Collapse(u) == (if u == [] then [] else " ")
  {
    if u != [] {
      SkipWsAllWs(u[1..]);
    }
  }

  /** `strip` cuts a piece out of the middle of `s` and removes only
      whitespace around it. */
  lemma StripSpec(s: string)
    ensures var r := Strip(s); var i := |s| - |SkipWs(s)|;
            && i + |r| <= |s| && r == s[i..i + |r|]
            && AllWs(s[..i]) && AllWs(s[i + |r|..])
  {
    var t := SkipWs(s);
    SkipWsSpec(s);
    StripEndSpec(t);
    var i := |s| - |t|;
    var r := Strip(s);
    assert s[i + |r|..] == t[|r|..];
  }

  /** Stripping text that is surrounded only by whitespace gives the text. */
  lemma StripAround(pre: string, t: string, post: string)
    requires AllWs(pre) && AllWs(post)
    requires t != [] && !IsWs(t[0]) && !IsWs(t[|t| - 1])
    ensures Strip(pre + t + post) == t
  {
    assert pre + t + post == pre + (t + post);
    assert (t + post)[0] == t[0];
    SkipWsLeading(pre, t + post);
    StripEndTrailing(t, post);
  }

  lemma {:induction false} SkipWsLeading(pre: string, x: string)
    requires AllWs(pre) && (x == [] || !IsWs(x[0]))
    ensures SkipWs(pre + x) == x
    decreases |pre|
  {
    if pre == [] {
      assert pre + x == x;
    } else {
      assert (pre + x)[0] == pre[0];
      assert (pre + x)[1..] == pre[1..] + x;
      SkipWsLeading(pre[1..], x);
    }
  }

  lemma {:induction false} StripEndTrailing(y: string, post: string)
    requires AllWs(post) && (y == [] || !IsWs(y[|y| - 1]))
    ensures StripEnd(y + post) == y
    decreases |post|
  {
    if post == [] {
      assert y + post == y;
    } else {
      var s := y + post;
      assert s[|s| - 1] == post[|post| - 1];
      assert s[..|s| - 1] == y + post[..|post| - 1];
      StripEndTrailing(y, post[..|post| - 1]);
    }
  }

  lemma {:induction false} StripEndAppend(a: string, c: string, k: nat)
    requires k < |c| && !IsWs(c[k])
    ensures StripEnd(a + c) == a + StripEnd(c)
    decreases |c|
  {
    if IsWs(c[|c| - 1]) {
      assert (a + c)[..|a + c| - 1] == a + c[..|c| - 1];
      StripEndAppend(a, c[..|c| - 1], k);
    } else {
      assert (a + c)[|a + c| - 1] == c[|c| - 1];
    }
  }

  lemma {:induction false} SplitNoSep(w: string, sep: char)
    requires sep !in w
    ensures Split(w, sep) == [w]
    decreases |w|
  {
    if w != [] {
      SplitNoSep(w[1..], sep);
      assert [w[0]] + w[1..] == w;
    }
  }

  lemma {:induction false} SplitAfterPiece(w: string, sep: char, z: string)
    requires sep !in w
    ensures Split(w + [sep] + z, sep) == [w] + Split(z, sep)
    decreases |w|
  {
    if w == [] {
      assert w + [sep] + z == [sep] + z;
      assert ([sep] + z)[1..] == z;
    } else {
      var s := w + [sep] + z;
      assert s[0] == w[0];
      assert s[1..] == w[1..] + [sep] + z;
      SplitAfterPiece(w[1..], sep, z);
      assert [w[0]] + w[1..] == w;
    }
  }

  /** Leading whitespace does not change the stripped, collapsed text. */
  lemma LeadingCollapse(s: string)
    ensures Strip(Collapse(s)) == Strip(Collapse(SkipWs(s)))
  {
    var t := SkipWs(s);
    if s != t {
      assert IsWs(s[0]);
      assert SkipWs(s[1..]) == t;
      var c := Collapse(t);
      assert c == [] || c[0] == t[0];
      assert SkipWs(" " + c) == SkipWs(c);
    }
  }

  /** A word followed by nothing but whitespace strips to the word. */
  lemma StripCollapseLastWord(w: string, u: string)
    requires w != [] && NoWs(w) && AllWs(u)
    ensures Strip(Collapse(w + u)) == w
  {
    CollapseWord(w, u);
    CollapseAllWs(u);
    assert w[0] == (w + Collapse(u))[0];
    assert SkipWs(w + Collapse(u)) == w + Collapse(u);
    if u == [] {
      assert w + Collapse(u) == w;
    } else {
      assert (w + " ")[..|w + " "| - 1] == w;
      assert StripEnd(w + " ") == StripEnd(w);
      assert StripEnd(w) == w;
    }
  }

  /** A word, a whitespace run and more text: the run becomes one space. */
  lemma StripCollapseNextWord(w: string, u: string)
    requires w != [] && NoWs(w) && u != [] && IsWs(u[0]) && SkipWs(u) != []
    ensures Strip(Collapse(w + u)) == w + [' '] + Strip(Collapse(SkipWs(u)))
  {
    CollapseWord(w, u);
    var v := SkipWs(u);
    assert Collapse(u) == " " + Collapse(v);
    var c := Collapse(v);
    assert c[0] == v[0];
    assert SkipWs(c) == c;
    ConcatAssoc(w, " ", c);
    assert (w + " " + c)[0] == w[0];
    assert SkipWs(w + " " + c) == w + " " + c;
    StripEndAppend(w + " ", c, 0);
  }

  /** One step of `SplitStripCollapse`: a string that starts with a word. */
  lemma StripCollapseWord(t: string)
    requires t != [] && !IsWs(t[0])
    ensures var w := Word(t); var v := SkipWs(t[|w|..]);
            && w != [] && NoWs(w) && |v| < |t|
            && Fields(t) == [w] + Fields(v)
            && (v == [] ==> Strip(Collapse(t)) == w)
            && (v != [] ==> Strip(Collapse(t)) == w + [' '] + Strip(Collapse(v)))
  {
    var w := Word(t);
    var u := t[|w|..];
    WordSplit(t);
    var v := SkipWs(u);
    FieldsUnfold(t);
    FieldsSkipWs(u);
    if v == [] {
      SkipWsSpec(u);
      assert u[..|u|] == u;
      StripCollapseLastWord(w, u);
    } else {
      StripCollapseNextWord(w, u);
    }
  }

  /** `re.sub('\\s+', ' ', s).strip().split(' ')` is `s.split()`, except that
      a string with no field splits into one empty piece. */
  lemma {:induction false} SplitStripCollapse(s: string)
    ensures Split(Strip(Collapse(s)), ' ') == (if Fields(s) == [] then [""] else Fields(s))
    decreases |s|
  {
    var t := SkipWs(s);
    LeadingCollapse(s);
    FieldsSkipWs(s);
    if t == [] {
      assert Strip(Collapse(t)) == [];
    } else {
      StripCollapseWord(t);
      var w := Word(t);
      var v := SkipWs(t[|w|..]);
      assert ' ' !in w;
      if v == [] {
        SplitNoSep(w, ' ');
      } else {
        SplitAfterPiece(w, ' ', Strip(Collapse(v)));
        SplitStripCollapse(v);
        assert Fields(v) != [];
      }
    }
  }
}

=== FILE: Wrappers.dfy ===
/** Failure-compatible wrappers shared by every part of the reader, and the
    errors the reader raises. Each error names the exception the Python
    reader raises at that point. */
module Wrappers {

  datatype Option<+T> = None | Some(value: T) {
    predicate IsFailure() { None? }

    function PropagateFailure<U>(): Option<U>
      requires None?
    {
      None
    }

    function Extract(): T
      requires Some?
    {
      value
    }
  }

  datatype Result<+T, +E> = Success(value: T) | Failure(error: E) {
    predicate IsFailure() { Failure? }

    function PropagateFailure<U>(): Result<U, E>
      requires Failure?
    {
      Failure(error)
    }

    function Extract(): T
      requires Success?
    {
      value
    }
  }

  /** Why one document (or one bracket expression) cannot be read. */
  datatype Error =
    | MalformedXml                  // the tree parser rejects the wrapped block
    | MissingChild(tag: string)     // `find` returned None and `.text` or iteration followed (AttributeError / TypeError)
    | MissingAttribute(name: string)// `attrib[name]` on an absent key (KeyError)
    | MissingText                   // `.text.strip()` on an element without text (AttributeError)
    | NotAnInteger(text: Option<string>) // `int(...)` on None or on a non-decimal string (TypeError / ValueError)
    | UnmatchedClose                // a `)` pops the outermost list (IndexError)
    | EmptyOuterList                // `stack[0][0]` on an empty outer list (IndexError)
    | NotCallable                   // a boolean called as a function (TypeError)

  /** Applies `f` to every element in order and stops at the first failure,
      as a Python list comprehension does when one of its calls raises. */
  function MapAll<S, T, E>(xs: seq<S>, f: S -> Result<T, E>): (r: Result<seq<T>, E>)
    ensures r.Success? <==> forall i :: 0 <= i < |xs| ==> f(xs[i]).Success?
    ensures r.Success? ==>
              && |r.value| == |xs|
              && forall i :: 0 <= i < |xs| ==> f(xs[i]) == Success(r.value[i])
    ensures r.Failure? ==>
              exists j :: 0 <= j < |xs| && f(xs[j]) == Failure(r.error)
                          && forall i :: 0 <= i < j ==> f(xs[i]).Success?
  {
    if xs == [] then Success([])
    else match f(xs[0])
      case Failure(e) => Failure(e)
      case Success(y) =>
        match MapAll(xs[1..], f)
        case Failure(e) =>
          assert forall i :: 1 <= i < |xs| ==> xs[i] == xs[1..][i - 1];
          Failure(e)
        case Success(ys) => Success([y] + ys)
  }

  /** When every call succeeds, the results are exactly the given values. */
  lemma {:induction false} MapAllSucceeds<S, T, E>(xs: seq<S>, f: S -> Result<T, E>, ys: seq<T>)
    requires |xs| == |ys| && forall i :: 0 <= i < |xs| ==> f(xs[i]) == Success(ys[i])
    ensures MapAll(xs, f) == Success(ys)
  {
    var r := MapAll(xs, f);
    assert r.Success?;
    assert r.value == ys;
  }

  // ---------------------------------------------------------------------
  // Positions in a sequence

  /** Strictly increasing positions: each is listed once, in order. */
  predicate Increasing(ps: seq<nat>) {
    forall k, l :: 0 <= k < l < |ps| ==> ps[k] < ps[l]
  }

  lemma IncreasingCons(p: nat, ps: seq<nat>)
    requires Increasing(ps) && forall q :: q in ps ==> p < q
    ensures Increasing([p] + ps)
  {
    var qs := [p] + ps;
    forall k, l | 0 <= k < l < |qs| ensures qs[k] < qs[l] {
      assert qs[l] == ps[l - 1] && ps[l - 1] in ps;
      if k > 0 {
        assert qs[k] == ps[k - 1];
      }
    }
  }

  /** Prepending a position and the element at it keeps `xs` the elements of
      `cs` at the positions `ps`. */
  lemma ShiftOne<T>(p: nat, ps: seq<nat>, x: T, xs: seq<T>, cs: seq<T>)
    requires p < |cs| && cs[p] == x
    requires |xs| == |ps| && forall k :: 0 <= k < |ps| ==> ps[k] < |cs| && xs[k] == cs[ps[k]]
    ensures var qs, ys := [p] + ps, [x] + xs;
            |ys| == |qs| && forall k :: 0 <= k < |qs| ==> qs[k] < |cs| && ys[k] == cs[qs[k]]
  {
    var qs, ys := [p] + ps, [x] + xs;
    forall k | 0 <= k < |qs| ensures qs[k] < |cs| && ys[k] == cs[qs[k]] {
      if k > 0 {
        assert qs[k] == ps[k - 1] && ys[k] == xs[k - 1];
      }
    }
  }
}

=== FILE: Xml.dfy ===
/** The part of an ElementTree element the reader looks at: its tag, its
    attributes, the text before its first child, and its children in
    document order. */
module Xml {
  import opened Wrappers

  datatype Element = Element(tag: string, attrib: map<string, string>, text: Option<string>, children: seq<Element>)

  /** `el.find(tag)`: the first direct child with that tag. */
  function Find(el: Element, tag: string): (r: Option<Element>)
    ensures r.Some? ==> r.value in el.children && r.value.tag == tag
  {
    FirstWithTagSpec(el.children, tag);
    FirstWithTag(el.children, tag)
  }

  /** `find` answers None exactly when no child has the tag, and otherwise
      the child at the first position holding it. */
  lemma FindSpec(el: Element, tag: string)
    ensures Find(el, tag).None? <==> forall i :: 0 <= i < |el.children| ==> el.children[i].tag != tag
    ensures Find(el, tag).Some? ==>
              exists i :: 0 <= i < |el.children| && el.children[i] == Find(el, tag).value
                          && forall j :: 0 <= j < i ==> el.children[j].tag != tag
  {
    FirstWithTagSpec(el.children, tag);
  }

  function FirstWithTag(cs: seq<Element>, tag: string): Option<Element> {
    if cs == [] then None
    else if cs[0].tag == tag then Some(cs[0])
    else FirstWithTag(cs[1..], tag)
  }

  lemma {:induction false} FirstWithTagSpec(cs: seq<Element>, tag: string)
    ensures var r := FirstWithTag(cs, tag);
            && (r.None? <==> forall i :: 0 <= i < |cs| ==> cs[i].tag != tag)
            && (r.Some? ==>
                  exists i :: 0 <= i < |cs| && cs[i] == r.value && r.value.tag == tag
                              && forall j :: 0 <= j < i ==> cs[j].tag != tag)
    decreases |cs|
  {
    if cs != [] && cs[0].tag != tag {
      FirstWithTagSpec(cs[1..], tag);
      assert forall i :: 1 <= i < |cs| ==> cs[i] == cs[1..][i - 1];
      var r := FirstWithTag(cs, tag);
      if r.Some? {
        var i :| 0 <= i < |cs[1..]| && cs[1..][i] == r.value && r.value.tag == tag
                 && forall j :: 0 <= j < i ==> cs[1..][j].tag != tag;
        assert cs[i + 1] == r.value;
        assert forall j :: 0 <= j < i + 1 ==> cs[j].tag != tag;
      }
    }
  }

  /** `el.findall(tag)`: the direct children with that tag. */
  function FindAll(el: Element, tag: string): (r: seq<Element>)
    ensures forall x :: x in r <==> x in el.children && x.tag == tag
  {
    AllWithTag(el.children, tag)
  }

  /** `findall` lists every child with the tag once, in document order: its
      `k`-th element is the child at the `k`-th position holding the tag. */
  lemma FindAllInOrder(el: Element, tag: string)
    ensures var ps := TagPositions(el.children, tag, 0);
            && |FindAll(el, tag)| == |ps|
            && (forall k :: 0 <= k < |ps| ==> ps[k] < |el.children| && FindAll(el, tag)[k] == el.children[ps[k]])
            && Increasing(ps)
            && (forall j :: 0 <= j < |el.children| ==> (el.children[j].tag == tag <==> j in ps))
  {
    AllWithTagPositions(el.children, tag, 0);
    assert el.children[0..] == el.children;
    PositionsBounded(el.children, tag, 0);
    PositionsIncreasing(el.children, tag, 0);
    PositionsComplete(el.children, tag, 0);
  }

  /** The positions, from `i` on, of the children with the tag. */
  function TagPositions(cs: seq<Element>, tag: string, i: nat): seq<nat>
    requires i <= |cs|
    decreases |cs| - i
  {
    if i == |cs| then [] else (if cs[i].tag == tag then [i] else []) + TagPositions(cs, tag, i + 1)
  }

  lemma {:induction false} PositionsBounded(cs: seq<Element>, tag: string, i: nat)
    requires i <= |cs|
    ensures forall p :: p in TagPositions(cs, tag, i) ==> i <= p < |cs| && cs[p].tag == tag
    decreases |cs| - i
  {
    if i < |cs| {
      PositionsBounded(cs, tag, i + 1);
    }
  }

  lemma {:induction false} PositionsIncreasing(cs: seq<Element>, tag: string, i: nat)
    requires i <= |cs|
    ensures Increasing(TagPositions(cs, tag, i))
    decreases |cs| - i
  {
    if i < |cs| {
      PositionsIncreasing(cs, tag, i + 1);
      var rest := TagPositions(cs, tag, i + 1);
      if cs[i].tag == tag {
        PositionsBounded(cs, tag, i + 1);
        IncreasingCons(i, rest);
      } else {
        assert TagPositions(cs, tag, i) == [] + rest;
        assert [] + rest == rest;
      }
    }
  }

  lemma {:induction false} PositionsComplete(cs: seq<Element>, tag: string, i: nat)
    requires i <= |cs|
    ensures forall j :: i <= j < |cs| && cs[j].tag == tag ==> j in TagPositions(cs, tag, i)
    decreases |cs| - i
  {
    if i < |cs| {
      PositionsComplete(cs, tag, i + 1);
      var rest := TagPositions(cs, tag, i + 1);
      var h := if cs[i].tag == tag then [i] else [];
      assert TagPositions(cs, tag, i) == h + rest;
      forall j | i <= j < |cs| && cs[j].tag == tag ensures j in h + rest {
        if j == i {
          assert (h + rest)[0] == i;
        } else {
          assert j in rest;
        }
      }
    }
  }

  lemma {:induction false} AllWithTagPositions(cs: seq<Element>, tag: string, i: nat)
    requires i <= |cs|
    ensures var ps := TagPositions(cs, tag, i);
            var r := AllWithTag(cs[i..], tag);
            |r| == |ps| && forall k :: 0 <= k < |ps| ==> ps[k] < |cs| && r[k] == cs[ps[k]]
    decreases |cs| - i
  {
    if i < |cs| {
      AllWithTagPositions(cs, tag, i + 1);
      var tail := AllWithTag(cs[i + 1..], tag);
      var rest := TagPositions(cs, tag, i + 1);
      assert cs[i..][0] == cs[i];
      assert cs[i..][1..] == cs[i + 1..];
      if cs[i].tag == tag {
        AllWithTagCons(cs[i..], tag, [cs[i]]);
        assert TagPositions(cs, tag, i) == [i] + rest;
        ShiftOne(i, rest, cs[i], tail, cs);
      } else {
        AllWithTagCons(cs[i..], tag, []);
        assert TagPositions(cs, tag, i) == [] + rest;
        assert [] + rest == rest && [] + tail == tail;
      }
    }
  }

  lemma AllWithTagCons(cs: seq<Element>, tag: string, h: seq<Element>)
    requires cs != [] && h == (if cs[0].tag == tag then [cs[0]] else [])
    ensures AllWithTag(cs, tag) == h + AllWithTag(cs[1..], tag)
  {
  }

  function AllWithTag(cs: seq<Element>, tag: string): (r: seq<Element>)
    ensures forall x :: x in r <==> x in cs && x.tag == tag
    ensures |r| <= |cs|
  {
    if cs == [] then []
    else
      assert forall x :: x in cs <==> x == cs[0] || x in cs[1..];
      (if cs[0].tag == tag then [cs[0]] else []) + AllWithTag(cs[1..], tag)
  }

  /** `el.attrib[name]`, which raises KeyError when the attribute is absent. */
  function Attr(el: Element, name: string): (r: Result<string, Error>)
    ensures r.Success? <==> name in el.attrib
    ensures r.Success? ==> r.value == el.attrib[name]
    ensures r.Failure? ==> r.error == MissingAttribute(name)
  {
    if name in el.attrib then Success(el.attrib[name]) else Failure(MissingAttribute(name))
  }

  /** `el.find(tag)` where the caller goes on to use the child, so a missing
      child is an error. */
  function Child(el: Element, tag: string): (r: Result<Element, Error>)
    ensures r.Failure? <==> Find(el, tag).None?
    ensures r.Success? ==> Find(el, tag) == Some(r.value)
    ensures r.Failure? ==> r.error == MissingChild(tag)
  {
    match Find(el, tag)
    case None => Failure(MissingChild(tag))
    case Some(c) => Success(c)
  }

  // ---------------------------------------------------------------------
  // Lemmas

  /** `find` returns the first element of `findall`. */
  lemma {:induction false} FirstIsHeadOfAll(cs: seq<Element>, tag: string)
    ensures FirstWithTag(cs, tag) == if AllWithTag(cs, tag) == [] then None else Some(AllWithTag(cs, tag)[0])
    decreases |cs|
  {
    if cs != [] && cs[0].tag != tag {
      FirstIsHeadOfAll(cs[1..], tag);
    }
  }

  lemma FindIsHeadOfFindAll(el: Element, tag: string)
    ensures Find(el, tag) == if FindAll(el, tag) == [] then None else Some(FindAll(el, tag)[0])
  {
    FirstIsHeadOfAll(el.children, tag);
  }
}
